=== FILE: README.md ===
# shroom core, modelled in Dafny

This project models four pieces of the shroom avatar and room renderer and proves their properties.

- **Avatar loader** (`src/objects/avatar/AvatarLoader.ts`):
  - the draw-definition cache key built from look options;
  - the process-lifetime caches for asset bundles, decoded textures, effect data and draw definitions;
  - one `getAvatarDrawDefinition` call, taken as a sequence of steps;
  - the result object's `getTexture` and `getDrawDefinition`.
- **Hit texture** (`src/objects/hitdetection/HitTexture.ts`):
  - the bit-packed alpha hit map, with one bit per pixel, 32 pixels per word and a set bit meaning alpha ≥ 25;
  - the lazily built cache of that map;
  - the `hits` point query, including horizontal mirroring.
- **Room camera** (`src/objects/room/RoomCamera.ts`):
  - the drag state machine, with states WAITING, WAIT_FOR_DISTANCE, DRAGGING and ANIMATE_ZERO;
  - pointer down, move and up;
  - the displayed position;
  - the out-of-bounds test that decides between committing a drag and animating back to zero.
- **SWF dump** (`src/tools/dump/dumpSwf.ts`):
  - the asset map built from symbol-class tags (code 76);
  - the binary-data tags (code 87) written as `.bin` files;
  - the extracted images written as `.png` files;
  - the output file names derived from symbol names.

Modules:

- `Wrappers`: `Option`, `Result` and `byte`.
- `Strings`:
  - comma join and split;
  - decimal rendering and parsing of integers.
- `LookKey`: the key and a reader for it.
- `Memo`: the insert-if-absent cache with a log of provider calls.
- `AvatarLoader`, `HitTexture`, `RoomCamera` and `DumpSwf`: one module per source file.

Asynchronous work is modelled as pending handles. Each handle is named by the provider call that created it. This makes "the same promise is handed out again" and "the provider was called once per key" statements about values. Collaborators that are not part of this model become parameters:

- the effect map;
- the libraries a look needs;
- the look resolver.

Two facts about the code shape the model:

- The key joins the actions in the iteration order of the action set. The code does not sort them.
- Effect data for a loader call comes straight from the effect-bundle provider and is not cached. `_loadEffect`, which is cached, is modelled, but the loader never calls it.

## Model

| member | source | states |
|---|---|---|
| LookKey.KeyRoundTrip | src/objects/avatar/AvatarLoader.ts:53-79 | Reading the key back gives actions, direction, head direction, item, look and effect exactly. This holds whenever no action holds `,` or `)` and neither the look nor the effect holds `)`. |
| LookKey.LookOptionsKey | src/objects/avatar/AvatarLoader.ts:53-79 | The key of options whose actions hold no `,` or `)` and whose look and effect hold no `)` reads back as exactly their six key fields. |
| LookKey.KeyDependsOnlyOnFields | src/objects/avatar/AvatarLoader.ts:53-79 | For any options: two that agree on the six key fields share a key, and flipping `initial` or `skipCaching` never changes it. |
| LookKey.KeyIdentifiesFields | src/objects/avatar/AvatarLoader.ts:53-79 | For options whose actions hold no `,` or `)` and whose look and effect hold no `)`: two share a cache key iff they agree on the six key fields, with actions in order. |
| LookKey.CommaInActionCollides | src/objects/avatar/AvatarLoader.ts:56-60 | Without that condition keys collide: one action `a,b` gives the same key as the two actions `a` and `b`. |
| LookKey.ParseRendered | src/objects/avatar/AvatarLoader.ts:60-78 | `name(content)` pieces joined with commas split back into the same pieces, given names without `(` and contents without `)`. |
| Strings.SplitJoin | src/objects/avatar/AvatarLoader.ts:57-59 | Splitting the comma-joined action list at commas gives back the list, when no action holds a comma. |
| Strings.IntStringRoundTrip | src/objects/avatar/AvatarLoader.ts:63-67 | The decimal text of a direction or item written into the key parses back to the same integer. Negative values are included. |
| Memo.GetOrCreate | src/objects/avatar/AvatarLoader.ts:264-272 | A hit returns the stored handle and changes nothing. A miss calls the provider once, stores that handle and logs one call. No entry is overwritten or evicted. |
| Memo.RequestsMatchEntries | src/objects/avatar/AvatarLoader.ts:264-272 | In a consistent cache, the number of provider calls equals the number of cached keys. |
| AvatarLoader.InitialValid | src/objects/avatar/AvatarLoader.ts:82-89 | The empty caches are consistent. |
| AvatarLoader.GetAssetBundle | src/objects/avatar/AvatarLoader.ts:264-272 | Returns the cached bundle for a library, or makes one provider call for that library and caches it. It keeps every cache consistent. |
| AvatarLoader.FetchBundles | src/objects/avatar/AvatarLoader.ts:192-201 | Afterwards every library the look needs has a cached bundle. Only those libraries are added. If all were cached, nothing changes. |
| AvatarLoader.LoadEffect | src/objects/avatar/AvatarLoader.ts:274-291 | Effect data is cached under `type_id`. On a miss it is read from `${type}${id}.bin`, once; on a hit the cached handle comes back unchanged. |
| AvatarLoader.DrawDefinitionCached | src/objects/avatar/AvatarLoader.ts:293-312 | A cached key wins and changes nothing. On a miss the resolver's answer is returned, and the cache gains exactly that answer under the key, or nothing when there is none. |
| AvatarLoader.DecodeTexture | src/objects/avatar/AvatarLoader.ts:215-220 | A miss decodes `${fileId}.png` from the cached bundle of the asset's library. It registers that decode globally under the file id. |
| AvatarLoader.LoadFile | src/objects/avatar/AvatarLoader.ts:209-221 | The file id joins this call's files: from this call, from the global cache, or from a new decode. The global cache gains at most that id. On a global miss the new entry decodes `${fileId}.png` from the bundle now cached for the asset's library, with the next decode ticket. |
| AvatarLoader.LoadFileKeepsValid | src/objects/avatar/AvatarLoader.ts:209-221 | Loading one file keeps every cache consistent: one provider call per key, and each cached texture decodes `${fileId}.png` of its own id from its library's cached bundle. |
| AvatarLoader.LoadFiles | src/objects/avatar/AvatarLoader.ts:203-225 | This call's files are exactly the file ids of the assets, each the globally cached decode. The definition cache is untouched. |
| AvatarLoader.LoadFilesGrows | src/objects/avatar/AvatarLoader.ts:203-225 | The global texture cache grows by exactly the referenced file ids. No texture or bundle entry is overwritten, and the effect cache is untouched. |
| AvatarLoader.LoadFilesWarm | src/objects/avatar/AvatarLoader.ts:209-213 | When every referenced file is already decoded globally, loading changes no cache. |
| AvatarLoader.LoadFilesKeepsValid | src/objects/avatar/AvatarLoader.ts:203-225 | Loading a definition's files keeps every cache consistent. |
| AvatarLoader.EffectFor | src/objects/avatar/AvatarLoader.ts:180-188 | Effect data is present iff the options name an effect and the effect map knows it. A missing entry is not an error. |
| AvatarLoader.LoadAvatar | src/objects/avatar/AvatarLoader.ts:170-255 | The call's effect data is the effect map's entry. The definition cache is updated exactly as `_getDrawDefinitionCached` updates it: on a miss the resolver's answer, when there is one, is cached under the key. The key is cached iff it was already cached or the resolver answered. The call's files are exactly the definition's file ids, or none, each the globally cached decode. |
| AvatarLoader.LoadAvatarGrows | src/objects/avatar/AvatarLoader.ts:170-233 | After a call, all needed libraries are fetched. The global texture cache gains exactly the call's files. Caches only grow, and the effect cache is untouched. |
| AvatarLoader.LoadedFilesDecodeOwnBlob | src/objects/avatar/AvatarLoader.ts:209-225 | Every texture a call hands out decodes `${fileId}.png` of its own file id, from the bundle cached for its library. |
| AvatarLoader.LoadAvatarKeepsValid | src/objects/avatar/AvatarLoader.ts:170-233 | A call keeps every cache consistent with its provider's call log. |
| AvatarLoader.GetTexture | src/objects/avatar/AvatarLoader.ts:246-251 | Succeeds iff the call loaded the id. Otherwise it fails with `InvalidTexture(id)`. |
| AvatarLoader.GetDrawDefinition | src/objects/avatar/AvatarLoader.ts:236-245 | Fails with `InvalidLook` iff the key is not cached and the resolver has no answer. A success is the cached definition when the key was cached, and otherwise the resolver's answer. It is cached under the key. |
| AvatarLoader.CachedDefinitionWins | src/objects/avatar/AvatarLoader.ts:298-304 | Once a key holds a definition, every lookup with the same key returns it, whatever resolver or effect data it is given. |
| AvatarLoader.TextureIffDefinitionFile | src/objects/avatar/AvatarLoader.ts:227-251 | `getTexture` on a call's result succeeds exactly for the file ids of the definition that call resolved. |
| AvatarLoader.WarmFiles | src/objects/avatar/AvatarLoader.ts:209-213 | Loading the files of a definition whose textures are all cached changes no cache and hands out exactly the cached decodes. |
| AvatarLoader.WarmLoad | src/objects/avatar/AvatarLoader.ts:203-233 | A call whose key, bundles and textures are all cached changes no cache and hands out the cached decodes. |
| AvatarLoader.RepeatedLoadChangesNothing | src/objects/avatar/AvatarLoader.ts:170-255 | Repeating a call with the same options leaves every cache unchanged and returns the same result. |
| AvatarLoader.LoadMany | src/objects/avatar/AvatarLoader.ts:82-86 | One result per call. Over a run of calls no texture, bundle or definition entry is overwritten or evicted. |
| AvatarLoader.LoadManyKeepsValid | src/objects/avatar/AvatarLoader.ts:82-86 | A run of calls keeps every cache consistent. |
| AvatarLoader.FetchAndDecodeOncePerKey | src/objects/avatar/AvatarLoader.ts:203-223 | Over any run of calls from a fresh loader, the bundle provider runs once per distinct library and the decoder once per distinct file id. |
| HitTexture.GenerateHitMap | src/objects/hitdetection/HitTexture.ts:73-99 | The map has ⌈w·h/32⌉ words. Bit i is set iff pixel i exists and its alpha byte is at least 25. |
| HitTexture.SetBitEffect | src/objects/hitdetection/HitTexture.ts:94 | OR-ing the mask of pixel i into its word sets bit i. Every other bit is left as it was. |
| HitTexture.LookupAgreement | src/objects/hitdetection/HitTexture.ts:54-59 | Looking up an index in the hit map of an image answers whether that index is a pixel and the pixel is opaque. An index past the last word is no hit. |
| HitTexture.HitMapsAgree | src/objects/hitdetection/HitTexture.ts:62-70 | Any two hit maps of one image answer every lookup alike. |
| HitTexture.GetHitMap | src/objects/hitdetection/HitTexture.ts:62-70 | Returns the cached map when there is one. Otherwise it builds the hit map of the image and caches it. |
| HitTexture.QueryIndex | src/objects/hitdetection/HitTexture.ts:38-55 | The flat index `hits` computes: the point relative to the drawn position, mirrored in x when asked, scaled by the resolution and offset by the frame, with the base texture's width as the row stride. `MirrorReflects` and `QueryLeftOfTexture` state its properties. |
| HitTexture.Hits | src/objects/hitdetection/HitTexture.ts:38-60 | Answers whether the query's flat index is a pixel of the image with alpha at least 25. For a non-negative 32-bit index this is the bit lookup `hits` performs on the cached map. A texture with a cached map is left unchanged. |
| HitTexture.MirrorReflects | src/objects/hitdetection/HitTexture.ts:44-48 | A mirrored query at x is the plain query at x reflected about the drawn position. |
| HitTexture.LookupAsWritten | src/objects/hitdetection/HitTexture.ts:56-59 | The bit lookup of `hits` with JavaScript operators: truncating `%` and `\| 0`, a shift count taken modulo 32, and a missing word read as 0. `LookupAsWrittenNonNegative` and `LookupAsWrittenNegative` state what it answers. |
| HitTexture.LookupAsWrittenNegative | src/objects/hitdetection/HitTexture.ts:56-59 | With JavaScript semantics, an index from -31 to -1 reads bit 32+index of word 0, and any lower index reads no hit. |
| HitTexture.LookupAsWrittenNonNegative | src/objects/hitdetection/HitTexture.ts:56-59 | For a non-negative 32-bit index, the lookup with JavaScript operator semantics is the bounds-checked lookup. |
| HitTexture.NegativeIndexAliases | src/objects/hitdetection/HitTexture.ts:56-59 | With JavaScript semantics, index -1 reads bit 31 of word 0, which reports a hit outside the image. |
| HitTexture.QueryLeftOfTexture | src/objects/hitdetection/HitTexture.ts:44-56 | At frame origin (0, 0) and resolution 1, the point one unit left of the drawn position has index -1. |
| RoomCamera.Position | src/objects/room/RoomCamera.ts:118-147 | Outside a drag, under the invariant, the room sits at the sum of the two offset pairs, since only one is live. A drag that has not travelled shows the committed offsets. |
| RoomCamera.PointerDown | src/objects/room/RoomCamera.ts:89-96 | In WAITING it starts waiting for distance with that pointer. During ANIMATE_ZERO it adopts the animated offsets and starts a drag that skips the bounds check. Otherwise nothing changes. The shown position never moves. |
| RoomCamera.PointerMove | src/objects/room/RoomCamera.ts:269-308 | With the matching pointer, waiting turns into dragging iff the pointer is at least 10 away from the start. Dragging updates only the current point. Offsets never change. |
| RoomCamera.StopDragging | src/objects/room/RoomCamera.ts:215-235 | The dragged position is committed and the camera waits, unless it is out of bounds or the drag skips the check. In that case the camera animates back to zero from that position with offsets zero. |
| RoomCamera.PointerUp | src/objects/room/RoomCamera.ts:72-87 | Ignored in WAITING, in ANIMATE_ZERO and for another pointer. Ends the wait for distance. Stops a drag. |
| RoomCamera.OutOfBounds | src/objects/room/RoomCamera.ts:149-178 | The four edge conditions hold iff the shifted room does not overlap the parent bounds on both axes. |
| RoomCamera.ReleaseCommitsVisibleOffsets | src/objects/room/RoomCamera.ts:215-235 | A release never commits offsets at which the room is hidden. It animates back iff the position is out of bounds or the check is skipped. |
| RoomCamera.ReleaseKeepsPosition | src/objects/room/RoomCamera.ts:180-235 | Releasing the pointer never moves the shown room. Committing and animating back both start from the dragged position. |
| RoomCamera.MoveShiftsPosition | src/objects/room/RoomCamera.ts:118-130 | A drag move shifts the shown position by exactly the pointer's travel. Every other move leaves it alone. |
| RoomCamera.OtherPointerIgnored | src/objects/room/RoomCamera.ts:72-76 | During a gesture, down, move and up events from another pointer change nothing. |
| RoomCamera.Step | src/objects/room/RoomCamera.ts:72-116 | Every pointer event keeps one offset pair live: offsets are zero while animating back, and animated offsets are zero otherwise. |
| RoomCamera.StepAsWritten | src/objects/room/RoomCamera.ts:72-116 | With the move conversion as written, every event keeps the same invariant. |
| RoomCamera.RunKeepsInv | src/objects/room/RoomCamera.ts:8-11 | Any stream of events keeps that invariant. |
| RoomCamera.InitialInv | src/objects/room/RoomCamera.ts:8-11 | A new camera waits at offset zero and meets the invariant. |
| RoomCamera.StationaryPointerWaits | src/objects/room/RoomCamera.ts:269-292 | Pressing and then moving to the same client point does not start a drag. |
| RoomCamera.StationaryPointerDragsAsWritten | src/objects/room/RoomCamera.ts:98-103 | With the move conversion as written and a parent translated by (20, 0), a pointer that has not moved starts a drag. |
| DumpSwf.AddSymbols | src/tools/dump/dumpSwf.ts:91-94 | Each symbol's name is appended to the list of its id. Duplicates are kept and no other list changes. |
| DumpSwf.AddTags | src/tools/dump/dumpSwf.ts:89-96 | Only code-76 tags add names, tag by tag and symbol by symbol. |
| DumpSwf.AssetMapOf | src/tools/dump/dumpSwf.ts:87-98 | The list of an id is every name bound to it by code-76 tags, in order. The keys are exactly the bound ids. |
| DumpSwf.AssetMapKeys | src/tools/dump/dumpSwf.ts:87-98 | An id is a key iff some code-76 tag has a symbol with that id. |
| DumpSwf.OnlySymbolTagsCount | src/tools/dump/dumpSwf.ts:89-90 | Dropping every tag other than code 76 leaves every list unchanged. |
| DumpSwf.DuplicatesKept | src/tools/dump/dumpSwf.ts:91-94 | Two symbols with one id give both names, in order. |
| DumpSwf.ReadUInt16LE | src/tools/dump/dumpSwf.ts:135 | Fails on fewer than two bytes. Otherwise the result is a 16-bit value. |
| DumpSwf.UInt16RoundTrip | src/tools/dump/dumpSwf.ts:135 | Reading a little-endian encoded 16-bit value gives it back, whatever follows. |
| DumpSwf.UInt16Bytes | src/tools/dump/dumpSwf.ts:135 | The value read encodes back to the first two bytes. |
| DumpSwf.Payload | src/tools/dump/dumpSwf.ts:142 | The written data is the buffer after its first six bytes, or empty for a shorter buffer. |
| DumpSwf.Drop | src/tools/dump/dumpSwf.ts:139 | `substr(n)` keeps the last `length - n` characters, or none. |
| DumpSwf.OutputName | src/tools/dump/dumpSwf.ts:113 | The written name ends in the extension. Before it come the last `length - (base length + 1)` characters of the raw name, or none. |
| DumpSwf.OutputNameStripsPrefix | src/tools/dump/dumpSwf.ts:139 | A raw name `<base><sep><rest>` is written as `<rest>.bin`. |
| DumpSwf.OutputNameOfShortName | src/tools/dump/dumpSwf.ts:113 | A raw name no longer than the prefix is written as the bare extension. |
| DumpSwf.NamedOutputs | src/tools/dump/dumpSwf.ts:138-146 | One output per mapped name, in order, each with the same bytes. |
| DumpSwf.TagOutputs | src/tools/dump/dumpSwf.ts:133-146 | A code-87 tag fails iff it is shorter than two bytes. Otherwise it gives one `.bin` per name of its character id, holding the payload. Other tags give nothing. |
| DumpSwf.ExtractXml | src/tools/dump/dumpSwf.ts:124-151 | Succeeds iff every code-87 tag holds a character id. |
| DumpSwf.ExtractXmlAppend | src/tools/dump/dumpSwf.ts:132-148 | Dumping a tag list is dumping its parts one after the other, in tag order. |
| DumpSwf.UnmappedTagWritesNothing | src/tools/dump/dumpSwf.ts:137-138 | A code-87 tag whose id has no names writes nothing. |
| DumpSwf.ExtractImages | src/tools/dump/dumpSwf.ts:100-122 | The number of `.png` files is the number of (image, mapped name) pairs. `ExtractImagesAppend` and `ImageOutputs` fix each file and its position. |
| DumpSwf.ExtractImagesAppend | src/tools/dump/dumpSwf.ts:109-119 | Extracting from a concatenation of images gives the outputs of the parts, one after the other. |
| DumpSwf.ImageOutputs | src/tools/dump/dumpSwf.ts:109-119 | One image gives one `.png` per name mapped to its character id, in name order, each holding the image's data. |
| DumpSwf.ImagesAreNamedPictures | src/tools/dump/dumpSwf.ts:109-119 | Each written `.png` is an extracted image's data under one of that image's names. |
| DumpSwf.DumpFiles | src/tools/dump/dumpSwf.ts:29-32 | The dump succeeds iff every code-87 tag is readable. It holds exactly the `.bin` files, in tag order, followed by exactly the image outputs, image by image and name by name. |

## Left out

- Promises and scheduling: the constructor's promise chain, `Promise.all` fan-out and `await` are modelled as sequential steps. Pending values are handles.
- Collaborators not shown are parameters or opaque data:
  - look parsing and `getLibrariesForLook` (as `Env.libraries`);
  - the look resolver from `createLookServer` (as `Env.resolve`);
  - the effect map (as `Env.effectInfo`);
  - the bundle, blob and effect-bundle providers (as handle constructors).
- The offsets collection (`this._offsets.open(bundle)`): its effect on the resolver is not part of this model.
- `AvatarLoader.create` and `createForAssetBundle`: they build URLs and fetch over the network.
- `initializeDefaultAvatarDependencies`: it loads data over the network.
- The warm-up call on the placeholder look `hd-99999-99999`: it is an ordinary loader call. It fetches bundles. If the resolver yields a definition for it, it caches that definition and decodes its textures. A run that begins with it is a `LoadMany` run whose first call has those options.
- `_openBundles`: it is never called.
- Failure of a provider promise and its propagation: not modelled. A pending handle always stands for its eventual value.
- AvatarLoader.LoadAvatar: the effect-data fetch is not cached and not counted, matching the code. Effect data is named by its effect map entry rather than by a provider call.
- HitTexture I/O: texture loading, the canvas readback (the image comes in as row-major RGBA bytes) and `applyTextureProperties`.
- HitTexture.Hits: coordinates and the resolution are integers, so `Math.round` is the identity. Non-integer positions and resolutions are not modelled.
- HitTexture.QueryIndex: the base texture's width (`baseWidth`) is an integer. A fractional `baseTexture.width`, possible at resolutions other than 1, is not modelled.
- HitTexture.LookupAsWritten: modelled only for indices in the signed 32-bit range.
- HitTexture.Hits: answers with the bounds-checked lookup. For flat indices -31 to -1 `hits` reads bit 32+index of word 0 instead (see Findings). `LookupAsWrittenNegative` states that behaviour.
- RoomCamera rendering and input plumbing:
  - Pixi containers, listeners and the ticker;
  - the tween that animates the offsets back to zero and its completion callback (the model stops at entering ANIMATE_ZERO);
  - `destroy`.
- RoomCamera.Step: the parent's world transform is a pure translation, and the canvas origin is given as a parameter.
- RoomCamera.Step: converts a move with the y translation, where line 102 of RoomCamera.ts subtracts the x translation (`tx`) from y (see Findings). `StepAsWritten` follows line 102 and keeps the same invariant; `RunKeepsInv` is stated only for `Step`.
- RoomCamera.PointerMove: the 10-unit threshold is compared squared (`dx² + dy² ≥ 100`), which is equivalent for reals. Floating-point rounding is not modelled.
- DumpSwf I/O:
  - file reads and writes and the directory layout of the written paths;
  - the zip archive and its `info.json`;
  - the sprite sheet and the furniture data parsers;
  - the SWF reader libraries: tags and extracted images come in as data.
- DumpSwf.Drop and DumpSwf.OutputName: lengths count Dafny characters, while `substr` and `.length` count UTF-16 code units. Names with characters outside the Basic Multilingual Plane are not modelled.
- DumpSwf.ExtractXml: a short tag makes the whole extraction fail. The files already written for earlier tags are not modelled.
- LookKey.KeyIdentifiesFields: the key is not injective for actions holding `,` or `)`, or a look or effect holding `)`. `CommaInActionCollides` shows a collision, so the iff is stated only under that condition.
- LookKey.KeyRoundTrip: JavaScript number formatting is modelled as plain decimal integers. Exponent forms of very large numbers and non-integer directions are not covered.

## Findings

| source | as written | input that shows it | evidently intended | confidence | as-written member | corrected member |
|---|---|---|---|---|---|---|
| src/objects/hitdetection/HitTexture.ts:56-59 | The flat index is split with truncating `%` and `\| 0`, and shift counts wrap modulo 32. So an index from -31 to -1 reads bit 32+index of word 0. | A 32×1 image whose only opaque pixel is pixel 31, drawn at frame (0, 0) with resolution 1, queried one unit left of its drawn position: the index is -1 and `hits` answers true. | A negative flat index, such as a point left of the first pixel of the first row, is never a hit. | medium, not executed | HitTexture.NegativeIndexAliases | HitTexture.LookupAgreement |
| src/objects/room/RoomCamera.ts:100-103 | The pointer-move position subtracts the parent's x translation (`worldTransform.tx`) from the y coordinate too. | Parent translated by (20, 0); press at client (50, 50), then move to the same point: the move position lies 20 above the press position, and a drag starts. | Subtract the y translation (`worldTransform.ty`) from y, as the press position does. | medium, not executed | RoomCamera.StationaryPointerDragsAsWritten | RoomCamera.StationaryPointerWaits |

=== FILE: AvatarLoader.dfy ===
/** The avatar loader's caches and its per-call result object
    (src/objects/avatar/AvatarLoader.ts). Promises are pending handles named by the
    provider call that created them; the effect map, the library resolution for a
    look and the look resolver are parameters (`Env`). */
module AvatarLoader {
  import opened Wrappers
  import opened LookKey
  import Memo

  /** One image of a draw-definition layer: the library that holds it and its file id. */
  datatype AssetRef = AssetRef(library: string, fileId: string)

  datatype DrawPart = DrawPart(assets: seq<AssetRef>)

  /** The look resolver's output; only the layers' asset references matter here. */
  datatype DrawDefinition = DrawDefinition(parts: seq<DrawPart>)

  /** The pending bundle from the bundle provider's call number `ticket`, made for `library`. */
  datatype BundleFetch = BundleFetch(library: string, ticket: nat)

  /** Pending decode number `ticket`: blob `blobName` read from `bundle`, wrapped as a hit texture. */
  datatype TextureDecode = TextureDecode(bundle: BundleFetch, blobName: string, ticket: nat)

  /** Pending effect load number `ticket`: string `blobName` read from the effect bundle. */
  datatype EffectLoad = EffectLoad(blobName: string, ticket: nat)

  /** An effect map entry; `lib` names the bundle the effect is read from. */
  datatype EffectInfo = EffectInfo(lib: string)

  /** The effect data read from the bundle an effect map entry names. */
  datatype EffectData = EffectDataOf(info: EffectInfo)

  /** The collaborators the loader consults:
      - `effectInfo`: the effect map's `getEffectInfo`;
      - `libraries`: the libraries a look string needs (look parsing plus figure tables);
      - `resolve`: the look resolver, `None` for a look it cannot draw. */
  datatype Env = Env(
    effectInfo: string -> Option<EffectInfo>,
    libraries: string -> seq<string>,
    resolve: (LookOptions, Option<EffectData>) -> Option<DrawDefinition>)

  /** The loader's four process-lifetime caches. */
  datatype Loader = Loader(
    bundles: Memo.Memo<BundleFetch>,
    textures: Memo.Memo<TextureDecode>,
    effects: Memo.Memo<EffectLoad>,
    definitions: map<string, DrawDefinition>)

  function Initial(): Loader
  {
    Loader(Memo.Empty(), Memo.Empty(), Memo.Empty(), map[])
  }

  /** The texture's blob is read from the bundle the bundle cache holds for its library. */
  predicate DecodesCachedBundle(l: Loader, t: TextureDecode)
  {
    t.bundle.library in l.bundles.entries && l.bundles.entries[t.bundle.library] == t.bundle
  }

  /** The texture cached under `fileId` decodes the blob `${fileId}.png`. */
  predicate DecodesOwnFile(fileId: string, t: TextureDecode)
  {
    t.blobName == fileId + ".png"
  }

  /** Every cache was filled by one provider call per key, each cached bundle is
      the one fetched for its own library, and every texture decode reads its own
      file's blob from the cached bundle of its library. */
  predicate Valid(l: Loader)
  {
    && Memo.Valid(l.bundles)
    && (forall lib :: lib in l.bundles.entries ==> l.bundles.entries[lib].library == lib)
    && Memo.Valid(l.textures)
    && Memo.Valid(l.effects)
    && (forall k :: k in l.textures.entries ==> DecodesCachedBundle(l, l.textures.entries[k]))
    && forall k :: k in l.textures.entries ==> DecodesOwnFile(k, l.textures.entries[k])
  }

  predicate SubMap<V(==)>(small: map<string, V>, big: map<string, V>)
  {
    forall k :: k in small ==> k in big && big[k] == small[k]
  }

  /** Two sub-maps of one map with the same keys are equal. */
  lemma SameKeysSameMap<V>(a: map<string, V>, b: map<string, V>, big: map<string, V>)
    requires a.Keys == b.Keys && SubMap(a, big) && SubMap(b, big)
    ensures a == b
  {
  }

  lemma InitialValid()
    ensures Valid(Initial())
  {
  }

  // ---------------------------------------------------------------------------
  // The caches

  /** `_getAssetBundle`: the cached bundle for `library`, or a new provider call. */
  function GetAssetBundle(l: Loader, library: string): (r: (Loader, BundleFetch))
    ensures library in l.bundles.entries ==> r == (l, l.bundles.entries[library])
    ensures library !in l.bundles.entries ==>
      && r.1 == BundleFetch(library, |l.bundles.requests|)
      && r.0.bundles.requests == l.bundles.requests + [library]
    ensures r.0.bundles.entries == l.bundles.entries[library := r.1]
    ensures r.0 == l.(bundles := r.0.bundles)
    ensures Memo.Extends(l.bundles, r.0.bundles)
    ensures Valid(l) ==> Valid(r.0) && r.1.library == library
  {
    var step := Memo.GetOrCreate(l.bundles, library, (lib: string, ticket: nat) => BundleFetch(lib, ticket));
    (l.(bundles := step.0), step.1)
  }

  /** Fetches (through the cache) every library a look needs. */
  function FetchBundles(l: Loader, libs: seq<string>): (r: Loader)
    ensures forall i :: 0 <= i < |libs| ==> libs[i] in r.bundles.entries
    ensures r.bundles.entries.Keys == l.bundles.entries.Keys + Memo.Elems(libs)
    ensures r == l.(bundles := r.bundles)
    ensures Memo.Extends(l.bundles, r.bundles)
    ensures Valid(l) ==> Valid(r)
    ensures (forall i :: 0 <= i < |libs| ==> libs[i] in l.bundles.entries) ==> r == l
    decreases |libs|
  {
    if |libs| == 0 then l
    else
      assert Memo.Elems(libs) == {libs[0]} + Memo.Elems(libs[1..]);
      FetchBundles(GetAssetBundle(l, libs[0]).0, libs[1..])
  }

  /** `_loadEffect`: effect data cached under `type_id`, read from `${type}${id}.bin`. */
  function LoadEffect(l: Loader, kind: string, id: string): (r: (Loader, EffectLoad))
    ensures kind + "_" + id in r.0.effects.entries && r.0.effects.entries[kind + "_" + id] == r.1
    ensures kind + "_" + id in l.effects.entries ==> r == (l, l.effects.entries[kind + "_" + id])
    ensures kind + "_" + id !in l.effects.entries ==>
      && r.1 == EffectLoad(kind + id + ".bin", |l.effects.requests|)
      && r.0.effects.requests == l.effects.requests + [kind + "_" + id]
    ensures r.0 == l.(effects := r.0.effects)
    ensures Memo.Extends(l.effects, r.0.effects)
    ensures Valid(l) ==> Valid(r.0)
  {
    var step := Memo.GetOrCreate(l.effects, kind + "_" + id, (key: string, ticket: nat) => EffectLoad(kind + id + ".bin", ticket));
    (l.(effects := step.0), step.1)
  }

  /** `_getDrawDefinitionCached`: the definition cached under the options' key, else
      the resolver's answer, cached only when there is one. */
  function DrawDefinitionCached(
    defs: map<string, DrawDefinition>,
    resolve: (LookOptions, Option<EffectData>) -> Option<DrawDefinition>,
    o: LookOptions,
    effect: Option<EffectData>): (r: (map<string, DrawDefinition>, Option<DrawDefinition>))
    ensures LookOptionsKey(o) in defs ==> r == (defs, Some(defs[LookOptionsKey(o)]))
    ensures LookOptionsKey(o) !in defs ==>
      && r.1 == resolve(o, effect)
      && r.0 == (if r.1.Some? then defs[LookOptionsKey(o) := r.1.value] else defs)
    ensures r.1.Some? <==> LookOptionsKey(o) in defs || resolve(o, effect).Some?
    ensures r.1.Some? ==> LookOptionsKey(o) in r.0 && r.0[LookOptionsKey(o)] == r.1.value
    ensures r.1.None? ==> r.0 == defs
    ensures SubMap(defs, r.0) && r.0.Keys <= defs.Keys + {LookOptionsKey(o)}
  {
    var key := LookOptionsKey(o);
    if key in defs then (defs, Some(defs[key]))
    else match resolve(o, effect)
      case None => (defs, None)
      case Some(d) => (defs[key := d], Some(d))
  }

  // ---------------------------------------------------------------------------
  // Loading the textures of a draw definition

  function PartAssets(parts: seq<DrawPart>): seq<AssetRef>
  {
    if |parts| == 0 then [] else parts[0].assets + PartAssets(parts[1..])
  }

  /** Every asset reference of every layer, in layer order. */
  function Assets(d: DrawDefinition): seq<AssetRef>
  {
    PartAssets(d.parts)
  }

  /** The file ids the references name. */
  function FileIdsOf(refs: seq<AssetRef>): set<string>
  {
    if |refs| == 0 then {} else {refs[0].fileId} + FileIdsOf(refs[1..])
  }

  lemma {:induction false} FileIdsOfNamed(refs: seq<AssetRef>)
    ensures forall i :: 0 <= i < |refs| ==> refs[i].fileId in FileIdsOf(refs)
    decreases |refs|
  {
    if |refs| > 0 {
      FileIdsOfNamed(refs[1..]);
      assert forall i :: 1 <= i < |refs| ==> refs[i] == refs[1..][i - 1];
    }
  }

  function FileIds(d: DrawDefinition): set<string>
  {
    FileIdsOf(Assets(d))
  }

  /** A global texture-cache miss: fetch (through the bundle cache) the library's
      bundle, start one decode of `${fileId}.png` from it and register it globally. */
  function DecodeTexture(l: Loader, a: AssetRef): (r: (Loader, TextureDecode))
    requires a.fileId !in l.textures.entries
    ensures a.library in r.0.bundles.entries
    ensures r.1 == TextureDecode(r.0.bundles.entries[a.library], a.fileId + ".png", |l.textures.requests|)
    ensures r.0.textures == Memo.Memo(l.textures.entries[a.fileId := r.1], l.textures.requests + [a.fileId])
    ensures Memo.Extends(l.bundles, r.0.bundles)
    ensures r.0.effects == l.effects && r.0.definitions == l.definitions
    ensures Valid(l) ==> Valid(r.0)
  {
    var fetched := GetAssetBundle(l, a.library);
    var l1 := fetched.0;
    var bundle := fetched.1;
    var decoded := Memo.GetOrCreate(l1.textures, a.fileId,
                     (fileId: string, ticket: nat) => TextureDecode(bundle, fileId + ".png", ticket));
    var l2 := l1.(textures := decoded.0);
    RegisterDecodeKeepsValid(l, l2, a.fileId, decoded.1);
    (l2, decoded.1)
  }

  lemma RegisterDecodeKeepsValid(l: Loader, l2: Loader, fileId: string, t: TextureDecode)
    requires Valid(l) ==> Memo.Valid(l2.bundles) && Memo.Valid(l2.textures) && Memo.Valid(l2.effects)
    requires l2.textures.entries == l.textures.entries[fileId := t]
    requires Memo.Extends(l.bundles, l2.bundles)
    requires Valid(l) ==> DecodesCachedBundle(l2, t)
    requires DecodesOwnFile(fileId, t)
    requires forall lib :: lib in l2.bundles.entries && lib !in l.bundles.entries ==> l2.bundles.entries[lib].library == lib
    ensures Valid(l) ==> Valid(l2)
  {
    if Valid(l) {
      forall k | k in l2.textures.entries
        ensures DecodesCachedBundle(l2, l2.textures.entries[k])
      {
        if k != fileId {
          assert DecodesCachedBundle(l, l.textures.entries[k]);
        }
      }
      forall k | k in l2.textures.entries
        ensures DecodesOwnFile(k, l2.textures.entries[k])
      {
        if k != fileId {
          assert DecodesOwnFile(k, l.textures.entries[k]);
        }
      }
    }
  }

  /** One asset of `loadResources`: skipped when this call already has its file,
      taken from the global texture cache when present there, decoded otherwise. */
  function LoadFile(l: Loader, loaded: map<string, TextureDecode>, a: AssetRef)
    : (r: (Loader, map<string, TextureDecode>))
    requires SubMap(loaded, l.textures.entries)
    ensures r.1.Keys == loaded.Keys + {a.fileId}
    ensures SubMap(r.1, r.0.textures.entries)
    ensures r.0.textures.entries.Keys == l.textures.entries.Keys + {a.fileId}
    ensures Memo.Extends(l.textures, r.0.textures) && Memo.Extends(l.bundles, r.0.bundles)
    ensures r.0.effects == l.effects && r.0.definitions == l.definitions
    ensures a.fileId in l.textures.entries ==> r.0 == l
    ensures a.fileId !in l.textures.entries ==>
      && a.library in r.0.bundles.entries
      && r.1[a.fileId] == TextureDecode(r.0.bundles.entries[a.library], a.fileId + ".png", |l.textures.requests|)
  {
    if a.fileId in loaded then (l, loaded)
    else if a.fileId in l.textures.entries then (l, loaded[a.fileId := l.textures.entries[a.fileId]])
    else
      var step := DecodeTexture(l, a);
      (step.0, loaded[a.fileId := step.1])
  }

  lemma LoadFileKeepsValid(l: Loader, loaded: map<string, TextureDecode>, a: AssetRef)
    requires SubMap(loaded, l.textures.entries)
    ensures Valid(l) ==> Valid(LoadFile(l, loaded, a).0)
  {
    if a.fileId !in loaded && a.fileId !in l.textures.entries {
      assert LoadFile(l, loaded, a).0 == DecodeTexture(l, a).0;
    }
  }

  /** The body of `loadResources` over the definition's asset references: this
      call's files are exactly the referenced ids, each the globally cached decode. */
  function LoadFiles(l: Loader, loaded: map<string, TextureDecode>, refs: seq<AssetRef>)
    : (r: (Loader, map<string, TextureDecode>))
    requires SubMap(loaded, l.textures.entries)
    ensures r.1.Keys == loaded.Keys + FileIdsOf(refs)
    ensures SubMap(r.1, r.0.textures.entries)
    ensures r.0.definitions == l.definitions
    decreases |refs|
  {
    if |refs| == 0 then (l, loaded)
    else
      var step := LoadFile(l, loaded, refs[0]);
      LoadFiles(step.0, step.1, refs[1..])
  }

  /** Loading files adds to the global texture cache exactly the referenced ids,
      overwrites nothing, and touches neither the effect nor the definition cache. */
  lemma {:induction false} LoadFilesGrows(l: Loader, loaded: map<string, TextureDecode>, refs: seq<AssetRef>)
    requires SubMap(loaded, l.textures.entries)
    ensures var r := LoadFiles(l, loaded, refs).0;
      && r.textures.entries.Keys == l.textures.entries.Keys + FileIdsOf(refs)
      && Memo.Extends(l.textures, r.textures) && Memo.Extends(l.bundles, r.bundles)
      && r.effects == l.effects
    decreases |refs|
  {
    if |refs| > 0 {
      var step := LoadFile(l, loaded, refs[0]);
      LoadFilesGrows(step.0, step.1, refs[1..]);
    }
  }

  /** When every referenced file is already cached globally, loading changes no cache. */
  lemma {:induction false} LoadFilesWarm(l: Loader, loaded: map<string, TextureDecode>, refs: seq<AssetRef>)
    requires SubMap(loaded, l.textures.entries)
    requires forall i :: 0 <= i < |refs| ==> refs[i].fileId in l.textures.entries
    ensures LoadFiles(l, loaded, refs).0 == l
    decreases |refs|
  {
    if |refs| > 0 {
      var step := LoadFile(l, loaded, refs[0]);
      LoadFilesWarm(step.0, step.1, refs[1..]);
    }
  }

  lemma {:induction false} LoadFilesKeepsValid(l: Loader, loaded: map<string, TextureDecode>, refs: seq<AssetRef>)
    requires SubMap(loaded, l.textures.entries)
    ensures Valid(l) ==> Valid(LoadFiles(l, loaded, refs).0)
    decreases |refs|
  {
    if |refs| > 0 {
      var step := LoadFile(l, loaded, refs[0]);
      LoadFileKeepsValid(l, loaded, refs[0]);
      LoadFilesKeepsValid(step.0, step.1, refs[1..]);
    }
  }

  // ---------------------------------------------------------------------------
  // One loader call and its result

  /** What a finished `getAvatarDrawDefinition` call hands back: the effect data it
      resolved and the awaited textures of this call, by file id. */
  datatype AvatarResult = AvatarResult(effectData: Option<EffectData>, files: map<string, TextureDecode>)

  datatype LoaderError = InvalidLook | InvalidTexture(id: string)

  /** The effect data of a call: looked up in the effect map only when the options
      name an effect; a missing entry leaves it absent without an error. */
  function EffectFor(env: Env, o: LookOptions): (r: Option<EffectData>)
    ensures r.Some? <==> o.effect.Some? && env.effectInfo(o.effect.value).Some?
    ensures r.Some? ==> env.effectInfo(o.effect.value) == Some(r.value.info)
  {
    if o.effect.None? then None
    else match env.effectInfo(o.effect.value)
      case None => None
      case Some(info) => Some(EffectDataOf(info))
  }

  /** `_getAvatarDrawDefinition`, its awaits taken as sequential steps. */
  function LoadAvatar(l: Loader, env: Env, o: LookOptions): (r: (Loader, AvatarResult))
    ensures r.1.effectData == EffectFor(env, o)
    ensures LookOptionsKey(o) in r.0.definitions
        <==> LookOptionsKey(o) in l.definitions || env.resolve(o, EffectFor(env, o)).Some?
    ensures r.1.files.Keys
        == if LookOptionsKey(o) in r.0.definitions then FileIds(r.0.definitions[LookOptionsKey(o)]) else {}
    ensures SubMap(r.1.files, r.0.textures.entries)
    ensures r.0.definitions == DrawDefinitionCached(l.definitions, env.resolve, o, EffectFor(env, o)).0
    ensures LookOptionsKey(o) !in l.definitions && env.resolve(o, EffectFor(env, o)).Some? ==>
      r.0.definitions[LookOptionsKey(o)] == env.resolve(o, EffectFor(env, o)).value
  {
    var effectData := EffectFor(env, o);
    var l1 := FetchBundles(l, env.libraries(o.look));
    var cached := DrawDefinitionCached(l1.definitions, env.resolve, o, effectData);
    var l2 := l1.(definitions := cached.0);
    if cached.1.None? then (l2, AvatarResult(effectData, map[]))
    else
      var step := LoadFiles(l2, map[], Assets(cached.1.value));
      (step.0, AvatarResult(effectData, step.1))
  }

  /** A loader call fetches every library the look needs, adds to the global
      texture cache exactly this call's files, and only ever adds to the caches. */
  lemma LoadAvatarGrows(l: Loader, env: Env, o: LookOptions)
    ensures var r := LoadAvatar(l, env, o);
      && (forall i :: 0 <= i < |env.libraries(o.look)| ==> env.libraries(o.look)[i] in r.0.bundles.entries)
      && r.0.textures.entries.Keys == l.textures.entries.Keys + r.1.files.Keys
      && SubMap(l.definitions, r.0.definitions)
      && Memo.Extends(l.bundles, r.0.bundles) && Memo.Extends(l.textures, r.0.textures)
      && r.0.effects == l.effects
  {
    var l1 := FetchBundles(l, env.libraries(o.look));
    var cached := DrawDefinitionCached(l1.definitions, env.resolve, o, EffectFor(env, o));
    var l2 := l1.(definitions := cached.0);
    if cached.1.Some? {
      LoadFilesGrows(l2, map[], Assets(cached.1.value));
    }
  }

  /** A loader call keeps the caches consistent. */
  lemma LoadAvatarKeepsValid(l: Loader, env: Env, o: LookOptions)
    ensures Valid(l) ==> Valid(LoadAvatar(l, env, o).0)
  {
    var l1 := FetchBundles(l, env.libraries(o.look));
    var step := DrawDefinitionCached(l1.definitions, env.resolve, o, EffectFor(env, o));
    var l2 := l1.(definitions := step.0);
    ValidIgnoresDefinitions(l1, step.0);
    if step.1.Some? {
      LoadFilesKeepsValid(l2, map[], Assets(step.1.value));
    }
  }

  /** Every texture a call hands out decodes `${fileId}.png` of its own file id,
      read from the bundle the bundle cache holds for that texture's library. */
  lemma LoadedFilesDecodeOwnBlob(l: Loader, env: Env, o: LookOptions)
    requires Valid(l)
    ensures var (l1, res) := LoadAvatar(l, env, o);
      forall id :: id in res.files ==>
        && res.files[id].blobName == id + ".png"
        && DecodesCachedBundle(l1, res.files[id])
  {
    LoadAvatarKeepsValid(l, env, o);
  }

  /** The draw-definition cache plays no part in the consistency of the other caches. */
  lemma ValidIgnoresDefinitions(l: Loader, defs: map<string, DrawDefinition>)
    ensures Valid(l) <==> Valid(l.(definitions := defs))
  {
  }

  /** The result's `getTexture`. */
  function GetTexture(res: AvatarResult, id: string): (r: Result<TextureDecode, LoaderError>)
    ensures r.Ok? <==> id in res.files
    ensures r.Ok? ==> r.value == res.files[id]
    ensures r.Err? ==> r.error == InvalidTexture(id)
  {
    if id in res.files then Ok(res.files[id]) else Err(InvalidTexture(id))
  }

  /** The result's `getDrawDefinition`: the cached resolver with this call's effect data. */
  function GetDrawDefinition(l: Loader, env: Env, res: AvatarResult, o: LookOptions)
    : (r: (Loader, Result<DrawDefinition, LoaderError>))
    ensures r.1.Err? <==> LookOptionsKey(o) !in l.definitions && env.resolve(o, res.effectData).None?
    ensures r.1.Err? ==> r.1.error == InvalidLook && r.0 == l
    ensures r.1.Ok? ==> LookOptionsKey(o) in r.0.definitions && r.0.definitions[LookOptionsKey(o)] == r.1.value
    ensures r.1.Ok? && LookOptionsKey(o) in l.definitions ==> r.1.value == l.definitions[LookOptionsKey(o)]
    ensures r.1.Ok? && LookOptionsKey(o) !in l.definitions ==> env.resolve(o, res.effectData) == Some(r.1.value)
    ensures r.0 == l.(definitions := r.0.definitions) && SubMap(l.definitions, r.0.definitions)
  {
    var cached := DrawDefinitionCached(l.definitions, env.resolve, o, res.effectData);
    match cached.1
    case None => (l, Err(InvalidLook))
    case Some(d) => (l.(definitions := cached.0), Ok(d))
  }

  // ---------------------------------------------------------------------------
  // Properties across calls

  /** Once a key holds a definition, every later lookup with options of the same
      key returns that definition, whatever resolver and effect data it is given. */
  lemma CachedDefinitionWins(
    defs: map<string, DrawDefinition>,
    resolve1: (LookOptions, Option<EffectData>) -> Option<DrawDefinition>,
    resolve2: (LookOptions, Option<EffectData>) -> Option<DrawDefinition>,
    o1: LookOptions, o2: LookOptions, e1: Option<EffectData>, e2: Option<EffectData>)
    requires LookOptionsKey(o1) == LookOptionsKey(o2)
    ensures var (defs1, d1) := DrawDefinitionCached(defs, resolve1, o1, e1);
      d1.Some? ==> DrawDefinitionCached(defs1, resolve2, o2, e2) == (defs1, d1)
  {
  }

  /** `getTexture` succeeds exactly for the file ids of the definition the call
      resolved, and fails with `InvalidTexture` for every other id. */
  lemma TextureIffDefinitionFile(l: Loader, env: Env, o: LookOptions, id: string)
    ensures var (l1, res) := LoadAvatar(l, env, o);
      && (GetTexture(res, id).Ok?
          <==> LookOptionsKey(o) in l1.definitions && id in FileIds(l1.definitions[LookOptionsKey(o)]))
      && (GetTexture(res, id).Err? ==> GetTexture(res, id).error == InvalidTexture(id))
  {
  }

  lemma AssetsCached(l: Loader, d: DrawDefinition)
    requires FileIds(d) <= l.textures.entries.Keys
    ensures forall i :: 0 <= i < |Assets(d)| ==> Assets(d)[i].fileId in l.textures.entries
  {
    FileIdsOfNamed(Assets(d));
  }

  /** A call whose key is cached and whose bundles and textures are all cached
      changes nothing and hands out the cached textures. */
  lemma WarmLoad(l: Loader, env: Env, o: LookOptions, files: map<string, TextureDecode>)
    requires LookOptionsKey(o) in l.definitions
    requires FetchBundles(l, env.libraries(o.look)) == l
    requires files.Keys == FileIds(l.definitions[LookOptionsKey(o)])
    requires SubMap(files, l.textures.entries)
    ensures LoadAvatar(l, env, o) == (l, AvatarResult(EffectFor(env, o), files))
  {
    var d := l.definitions[LookOptionsKey(o)];
    var cached := DrawDefinitionCached(l.definitions, env.resolve, o, EffectFor(env, o));
    assert cached == (l.definitions, Some(d));
    assert l.(definitions := cached.0) == l;
    WarmFiles(l, d, files);
  }

  /** Loading the files of a definition whose textures are all cached changes
      nothing and hands out exactly the cached decodes. */
  lemma WarmFiles(l: Loader, d: DrawDefinition, files: map<string, TextureDecode>)
    requires files.Keys == FileIds(d)
    requires SubMap(files, l.textures.entries)
    ensures LoadFiles(l, map[], Assets(d)) == (l, files)
  {
    AssetsCached(l, d);
    var step := LoadFiles(l, map[], Assets(d));
    LoadFilesWarm(l, map[], Assets(d));
    SameKeysSameMap(step.1, files, l.textures.entries);
  }

  /** A second call with the same options, right after the first, fetches no
      bundle, decodes no texture, does not consult the resolver again when the
      first call cached a definition, and returns the same result. */
  lemma RepeatedLoadChangesNothing(l: Loader, env: Env, o: LookOptions)
    ensures var (l1, r1) := LoadAvatar(l, env, o);
      LoadAvatar(l1, env, o) == (l1, r1)
  {
    var first := LoadAvatar(l, env, o);
    var l1 := first.0;
    var r1 := first.1;
    var libs := env.libraries(o.look);
    LoadAvatarGrows(l, env, o);
    assert FetchBundles(l1, libs) == l1;
    if LookOptionsKey(o) in l1.definitions {
      WarmLoad(l1, env, o, r1.files);
    } else {
      var eff := EffectFor(env, o);
      var l0 := FetchBundles(l, libs);
      assert env.resolve(o, eff).None?;
      assert l1 == l0;
      assert r1 == AvatarResult(eff, map[]);
    }
  }

  /** A run of loader calls, one after another, from the same loader. */
  function LoadMany(l: Loader, env: Env, calls: seq<LookOptions>): (r: (Loader, seq<AvatarResult>))
    ensures |r.1| == |calls|
    ensures Memo.Extends(l.textures, r.0.textures) && Memo.Extends(l.bundles, r.0.bundles)
    ensures SubMap(l.definitions, r.0.definitions)
    decreases |calls|
  {
    if |calls| == 0 then (l, [])
    else
      var first := LoadAvatar(l, env, calls[0]);
      LoadAvatarGrows(l, env, calls[0]);
      var rest := LoadMany(first.0, env, calls[1..]);
      (rest.0, [first.1] + rest.1)
  }

  lemma {:induction false} LoadManyKeepsValid(l: Loader, env: Env, calls: seq<LookOptions>)
    ensures Valid(l) ==> Valid(LoadMany(l, env, calls).0)
    decreases |calls|
  {
    if |calls| > 0 {
      LoadAvatarKeepsValid(l, env, calls[0]);
      LoadManyKeepsValid(LoadAvatar(l, env, calls[0]).0, env, calls[1..]);
    }
  }

  /** Over any run of calls from a fresh loader, the bundle provider is called
      once per distinct library and the decoder once per distinct file id. */
  lemma FetchAndDecodeOncePerKey(env: Env, calls: seq<LookOptions>)
    ensures var (l, _) := LoadMany(Initial(), env, calls);
      && Memo.Distinct(l.bundles.requests) && |l.bundles.requests| == |l.bundles.entries.Keys|
      && Memo.Distinct(l.textures.requests) && |l.textures.requests| == |l.textures.entries.Keys|
  {
    var l := LoadMany(Initial(), env, calls).0;
    InitialValid();
    LoadManyKeepsValid(Initial(), env, calls);
    Memo.RequestsMatchEntries(l.bundles);
    Memo.RequestsMatchEntries(l.textures);
  }
}

=== FILE: DumpSwf.dfy ===
/** The data side of the SWF dump tool (src/tools/dump/dumpSwf.ts): the asset
    map built from symbol-class tags, the binary-data tags written out as
    `.bin` files, the images written out as `.png` files, and the output file
    names derived from the symbol names. */
module DumpSwf {
  import opened Wrappers

  /** A symbol-class entry: a character id and the exported name bound to it. */
  datatype Symbol = Symbol(id: int, name: string)

  /** A SWF tag: its header code, its symbols (meaningful for code 76) and its
      raw body bytes (meaningful for code 87). */
  datatype Tag = Tag(code: int, symbols: seq<Symbol>, data: seq<byte>)

  /** An image the SWF reader extracted, with the character id it belongs to. */
  datatype Picture = Picture(characterId: int, imgData: seq<byte>)

  /** A file the dump writes: its name inside the dump folder and its bytes. */
  datatype Output = Output(fileName: string, content: seq<byte>)

  /** `readUInt16LE` throws when the buffer holds fewer than two bytes. */
  datatype DumpError = OutOfRange

  type AssetMap = map<int, seq<string>>

  const SymbolClass: int := 76
  const DefineBinaryData: int := 87

  /** `assetMap.get(id) ?? []`. */
  function Get(m: AssetMap, id: int): seq<string>
  {
    if id in m then m[id] else []
  }

  // ---------------------------------------------------------------------------
  // The asset map

  /** Reference definition: the names of the symbols with id `id`, in order. */
  function SymbolNames(syms: seq<Symbol>, id: int): seq<string>
  {
    if |syms| == 0 then []
    else (if syms[0].id == id then [syms[0].name] else []) + SymbolNames(syms[1..], id)
  }

  /** Reference definition: the names bound to `id` by the code-76 tags, tag by
      tag and symbol by symbol. */
  function NamesFor(tags: seq<Tag>, id: int): seq<string>
  {
    if |tags| == 0 then []
    else
      (if tags[0].code == SymbolClass then SymbolNames(tags[0].symbols, id) else [])
      + NamesFor(tags[1..], id)
  }

  function SymbolIds(syms: seq<Symbol>): set<int>
  {
    set s | s in syms :: s.id
  }

  /** The ids that the code-76 tags bind. */
  function BoundIds(tags: seq<Tag>): set<int>
  {
    if |tags| == 0 then {}
    else (if tags[0].code == SymbolClass then SymbolIds(tags[0].symbols) else {}) + BoundIds(tags[1..])
  }

  /** The inner loop of `getAssetMapFromSWF`: append each symbol's name to the
      list of its id. */
  function AddSymbols(m: AssetMap, syms: seq<Symbol>): (r: AssetMap)
    ensures forall id :: Get(r, id) == Get(m, id) + SymbolNames(syms, id)
    ensures r.Keys == m.Keys + SymbolIds(syms)
    decreases |syms|
  {
    if |syms| == 0 then m
    else
      var s := syms[0];
      var m' := m[s.id := Get(m, s.id) + [s.name]];
      assert SymbolIds(syms) == {s.id} + SymbolIds(syms[1..]);
      AddNameGet(m, s, syms);
      AddSymbols(m', syms[1..])
  }

  /** Appending one symbol's name extends the list of its id and no other. */
  lemma AddNameGet(m: AssetMap, s: Symbol, syms: seq<Symbol>)
    requires |syms| > 0 && syms[0] == s
    ensures forall id :: Get(m[s.id := Get(m, s.id) + [s.name]], id) + SymbolNames(syms[1..], id)
                       == Get(m, id) + SymbolNames(syms, id)
  {
    forall id
      ensures Get(m[s.id := Get(m, s.id) + [s.name]], id) + SymbolNames(syms[1..], id)
           == Get(m, id) + SymbolNames(syms, id)
    {
      var one := if s.id == id then [s.name] else [];
      var rest := SymbolNames(syms[1..], id);
      assert Get(m[s.id := Get(m, s.id) + [s.name]], id) == Get(m, id) + one;
      assert SymbolNames(syms, id) == one + rest;
      assert (Get(m, id) + one) + rest == Get(m, id) + (one + rest);
    }
  }

  /** The outer loop of `getAssetMapFromSWF`: only code-76 tags contribute. */
  function AddTags(m: AssetMap, tags: seq<Tag>): (r: AssetMap)
    ensures forall id :: Get(r, id) == Get(m, id) + NamesFor(tags, id)
    ensures r.Keys == m.Keys + BoundIds(tags)
    decreases |tags|
  {
    if |tags| == 0 then m
    else
      var m' := AddTag(m, tags[0]);
      AddTagGet(m, tags);
      AddTagKeys(m, tags);
      AddTags(m', tags[1..])
  }

  /** One step of the outer loop: a code-76 tag adds its symbols, any other tag
      leaves the map as it is. */
  function AddTag(m: AssetMap, t: Tag): AssetMap
  {
    if t.code == SymbolClass then AddSymbols(m, t.symbols) else m
  }

  /** The first tag's names come before those of the rest. */
  lemma AddTagGet(m: AssetMap, tags: seq<Tag>)
    requires |tags| > 0
    ensures forall id :: Get(AddTag(m, tags[0]), id) + NamesFor(tags[1..], id) == Get(m, id) + NamesFor(tags, id)
  {
    forall id
      ensures Get(AddTag(m, tags[0]), id) + NamesFor(tags[1..], id) == Get(m, id) + NamesFor(tags, id)
    {
      AddTagGetAt(m, tags, id);
    }
  }

  lemma AddTagGetAt(m: AssetMap, tags: seq<Tag>, id: int)
    requires |tags| > 0
    ensures Get(AddTag(m, tags[0]), id) + NamesFor(tags[1..], id) == Get(m, id) + NamesFor(tags, id)
  {
    var one := if tags[0].code == SymbolClass then SymbolNames(tags[0].symbols, id) else [];
    var rest := NamesFor(tags[1..], id);
    assert NamesFor(tags, id) == one + rest;
    assert Get(AddTag(m, tags[0]), id) == Get(m, id) + one;
    ConcatAssociative(Get(m, id), one, rest);
  }

  lemma ConcatAssociative<T>(a: seq<T>, b: seq<T>, c: seq<T>)
    ensures (a + b) + c == a + (b + c)
  {
  }

  /** The first tag's ids join those of the rest. */
  lemma AddTagKeys(m: AssetMap, tags: seq<Tag>)
    requires |tags| > 0
    ensures AddTag(m, tags[0]).Keys + BoundIds(tags[1..]) == m.Keys + BoundIds(tags)
  {
    var ids := if tags[0].code == SymbolClass then SymbolIds(tags[0].symbols) else {};
    assert BoundIds(tags) == ids + BoundIds(tags[1..]);
    assert AddTag(m, tags[0]).Keys == m.Keys + ids;
  }

  /** `getAssetMapFromSWF`. */
  function AssetMapOf(tags: seq<Tag>): (r: AssetMap)
    ensures forall id :: Get(r, id) == NamesFor(tags, id)
    ensures r.Keys == BoundIds(tags)
  {
    AddTags(map[], tags)
  }

  /** An id is a key of the asset map iff some code-76 tag has a symbol with that id. */
  lemma {:induction false} AssetMapKeys(tags: seq<Tag>, id: int)
    ensures id in AssetMapOf(tags) <==>
      exists i, j :: 0 <= i < |tags| && tags[i].code == SymbolClass
        && 0 <= j < |tags[i].symbols| && tags[i].symbols[j].id == id
    decreases |tags|
  {
    BoundIdsWitness(tags, id);
  }

  lemma {:induction false} BoundIdsWitness(tags: seq<Tag>, id: int)
    ensures id in BoundIds(tags) <==>
      exists i, j :: 0 <= i < |tags| && tags[i].code == SymbolClass
        && 0 <= j < |tags[i].symbols| && tags[i].symbols[j].id == id
    decreases |tags|
  {
    if |tags| > 0 {
      BoundIdsWitness(tags[1..], id);
      if id in BoundIds(tags) {
        if tags[0].code == SymbolClass && id in SymbolIds(tags[0].symbols) {
          var s :| s in tags[0].symbols && s.id == id;
          var j :| 0 <= j < |tags[0].symbols| && tags[0].symbols[j] == s;
          assert tags[0].code == SymbolClass && tags[0].symbols[j].id == id;
        } else {
          var i, j :| 0 <= i < |tags[1..]| && tags[1..][i].code == SymbolClass
            && 0 <= j < |tags[1..][i].symbols| && tags[1..][i].symbols[j].id == id;
          assert tags[i + 1] == tags[1..][i];
        }
      }
      if (exists i, j :: 0 <= i < |tags| && tags[i].code == SymbolClass
            && 0 <= j < |tags[i].symbols| && tags[i].symbols[j].id == id)
      {
        var i, j :| 0 <= i < |tags| && tags[i].code == SymbolClass
          && 0 <= j < |tags[i].symbols| && tags[i].symbols[j].id == id;
        if i == 0 {
          assert tags[0].symbols[j] in tags[0].symbols;
        } else {
          assert tags[1..][i - 1] == tags[i];
        }
      }
    }
  }

  /** The code-76 tags of a tag list. */
  function SymbolTags(tags: seq<Tag>): (r: seq<Tag>)
    ensures forall t :: t in r ==> t in tags && t.code == SymbolClass
  {
    if |tags| == 0 then []
    else (if tags[0].code == SymbolClass then [tags[0]] else []) + SymbolTags(tags[1..])
  }

  /** Tags other than code 76 do not affect the asset map. */
  lemma {:induction false} OnlySymbolTagsCount(tags: seq<Tag>, id: int)
    ensures NamesFor(tags, id) == NamesFor(SymbolTags(tags), id)
    decreases |tags|
  {
    if |tags| > 0 {
      OnlySymbolTagsCount(tags[1..], id);
      var head := if tags[0].code == SymbolClass then [tags[0]] else [];
      NamesForAppend(head, SymbolTags(tags[1..]), id);
      if tags[0].code == SymbolClass {
        assert NamesFor(head, id) == SymbolNames(tags[0].symbols, id) + NamesFor([], id);
      }
    }
  }

  lemma {:induction false} NamesForAppend(a: seq<Tag>, b: seq<Tag>, id: int)
    ensures NamesFor(a + b, id) == NamesFor(a, id) + NamesFor(b, id)
    decreases |a|
  {
    if |a| > 0 {
      assert (a + b)[1..] == a[1..] + b;
      NamesForAppend(a[1..], b, id);
    } else {
      assert a + b == b;
    }
  }

  /** Duplicates are kept: two symbols with one id give two names, in order. */
  lemma DuplicatesKept(id: int, n1: string, n2: string)
    ensures Get(AssetMapOf([Tag(SymbolClass, [Symbol(id, n1), Symbol(id, n2)], [])]), id) == [n1, n2]
  {
    var syms := [Symbol(id, n1), Symbol(id, n2)];
    assert syms[1..][1..] == [];
    assert SymbolNames(syms, id) == [n1] + SymbolNames(syms[1..], id);
    var tags := [Tag(SymbolClass, syms, [])];
    assert NamesFor(tags, id) == SymbolNames(syms, id) + NamesFor(tags[1..], id);
  }

  // ---------------------------------------------------------------------------
  // Bytes and names

  /** `Buffer.readUInt16LE()` at offset 0. */
  function ReadUInt16LE(d: seq<byte>): (r: Result<int, DumpError>)
    ensures r.Ok? <==> |d| >= 2
    ensures r.Ok? ==> 0 <= r.value < 0x1_0000
  {
    if |d| < 2 then Err(OutOfRange)
    else
      var v := d[0] as int + 256 * (d[1] as int);
      Ok(v)
  }

  /** Little-endian encoding of a 16-bit value. */
  function EncodeUInt16LE(n: int): (r: seq<byte>)
    requires 0 <= n < 0x1_0000
    ensures |r| == 2
  {
    [n % 256, n / 256]
  }

  /** Reading back an encoded value gives it back, whatever follows it. */
  lemma UInt16RoundTrip(n: int, rest: seq<byte>)
    requires 0 <= n < 0x1_0000
    ensures ReadUInt16LE(EncodeUInt16LE(n) + rest) == Ok(n)
  {
  }

  /** Encoding what was read gives back the first two bytes. */
  lemma UInt16Bytes(d: seq<byte>)
    requires |d| >= 2
    ensures EncodeUInt16LE(ReadUInt16LE(d).value) == d[..2]
  {
  }

  /** `buffer.subarray(6)`: everything after the six header bytes, empty for a
      shorter buffer. */
  function Payload(d: seq<byte>): (r: seq<byte>)
    ensures |r| == if |d| >= 6 then |d| - 6 else 0
    ensures d == d[..|d| - |r|] + r
  {
    if |d| >= 6 then d[6..] else []
  }

  /** `s.substr(n)` for non-negative `n`: empty when `n` reaches past the end. */
  function Drop(s: string, n: nat): (r: string)
    ensures |r| == if n <= |s| then |s| - n else 0
    ensures r <= s[|s| - |r|..] && s[|s| - |r|..] <= r
  {
    if n >= |s| then [] else s[n..]
  }

  /** `rawName.substr(basename.length + 1) + ext`. */
  function OutputName(rawName: string, base: string, ext: string): (r: string)
    ensures |r| == |ext| + if |base| < |rawName| then |rawName| - |base| - 1 else 0
    ensures r[|r| - |ext|..] == ext
    ensures r[..|r| - |ext|] == rawName[|rawName| - (|r| - |ext|)..]
  {
    Drop(rawName, |base| + 1) + ext
  }

  /** A name of the form `<base><separator><rest>` is written as `<rest><ext>`. */
  lemma OutputNameStripsPrefix(base: string, sep: char, rest: string, ext: string)
    ensures OutputName(base + [sep] + rest, base, ext) == rest + ext
  {
    var raw := base + [sep] + rest;
    assert raw[|base| + 1..] == rest;
  }

  /** A name no longer than the prefix is written as the extension alone. */
  lemma OutputNameOfShortName(rawName: string, base: string, ext: string)
    requires |rawName| <= |base| + 1
    ensures OutputName(rawName, base, ext) == ext
  {
  }

  /** One output per name, all with the same content. */
  function NamedOutputs(names: seq<string>, base: string, ext: string, content: seq<byte>): (r: seq<Output>)
    ensures |r| == |names|
    ensures forall k :: 0 <= k < |r| ==> r[k].content == content && r[k].fileName == OutputName(names[k], base, ext)
  {
    seq(|names|, k requires 0 <= k < |names| => Output(OutputName(names[k], base, ext), content))
  }

  // ---------------------------------------------------------------------------
  // Binary data (`extractXml`)

  /** A tag that `extractXml` reads without throwing. */
  predicate Readable(t: Tag)
  {
    t.code != DefineBinaryData || |t.data| >= 2
  }

  /** The files one tag produces: one `.bin` per name mapped to the tag's
      character id, each holding the payload; none for other tags. */
  function TagOutputs(t: Tag, m: AssetMap, base: string): (r: Result<seq<Output>, DumpError>)
    ensures r.Ok? <==> Readable(t)
    ensures r.Ok? && t.code != DefineBinaryData ==> r.value == []
    ensures r.Ok? && t.code == DefineBinaryData ==>
      var names := Get(m, ReadUInt16LE(t.data).value);
      |r.value| == |names|
      && forall k :: 0 <= k < |names| ==>
        r.value[k] == Output(OutputName(names[k], base, ".bin"), Payload(t.data))
  {
    if t.code != DefineBinaryData then Ok([])
    else
      match ReadUInt16LE(t.data)
      case Err(e) => Err(e)
      case Ok(id) => Ok(NamedOutputs(Get(m, id), base, ".bin", Payload(t.data)))
  }

  /** `extractXml`: the outputs of every tag, in tag order; it fails if any
      code-87 tag is too short to hold a character id. */
  function ExtractXml(tags: seq<Tag>, m: AssetMap, base: string): (r: Result<seq<Output>, DumpError>)
    ensures r.Ok? <==> forall i :: 0 <= i < |tags| ==> Readable(tags[i])
    decreases |tags|
  {
    if |tags| == 0 then Ok([])
    else
      match TagOutputs(tags[0], m, base)
      case Err(e) => Err(e)
      case Ok(head) =>
        match ExtractXml(tags[1..], m, base)
        case Err(e) => Err(e)
        case Ok(tail) => Ok(head + tail)
  }

  /** Joins two partial dumps: both must succeed. */
  function Both(a: Result<seq<Output>, DumpError>, b: Result<seq<Output>, DumpError>): Result<seq<Output>, DumpError>
  {
    if a.Ok? && b.Ok? then Ok(a.value + b.value) else Err(OutOfRange)
  }

  /** `ExtractXml` of a non-empty list: the first tag's outputs, then the rest's. */
  lemma ExtractXmlCons(tags: seq<Tag>, m: AssetMap, base: string)
    requires |tags| > 0
    ensures ExtractXml(tags, m, base) == Both(TagOutputs(tags[0], m, base), ExtractXml(tags[1..], m, base))
  {
  }

  lemma BothAssociative(x: Result<seq<Output>, DumpError>, y: Result<seq<Output>, DumpError>,
                        z: Result<seq<Output>, DumpError>)
    ensures Both(x, Both(y, z)) == Both(Both(x, y), z)
  {
    if x.Ok? && y.Ok? && z.Ok? {
      assert x.value + (y.value + z.value) == (x.value + y.value) + z.value;
    }
  }

  lemma BothEmpty(y: Result<seq<Output>, DumpError>)
    requires y.Ok? || y.error == OutOfRange
    ensures Both(Ok([]), y) == y
  {
    if y.Ok? {
      assert [] + y.value == y.value;
    }
  }

  /** Dumping a tag list is dumping its parts one after the other; together
      with `TagOutputs` this fixes every output and its position. */
  lemma {:induction false} ExtractXmlAppend(a: seq<Tag>, b: seq<Tag>, m: AssetMap, base: string)
    ensures ExtractXml(a + b, m, base) == Both(ExtractXml(a, m, base), ExtractXml(b, m, base))
    decreases |a|
  {
    if |a| == 0 {
      assert a + b == b;
      BothEmpty(ExtractXml(b, m, base));
    } else {
      assert (a + b)[0] == a[0];
      assert (a + b)[1..] == a[1..] + b;
      ExtractXmlCons(a + b, m, base);
      ExtractXmlCons(a, m, base);
      ExtractXmlAppend(a[1..], b, m, base);
      BothAssociative(TagOutputs(a[0], m, base), ExtractXml(a[1..], m, base), ExtractXml(b, m, base));
    }
  }

  /** A code-87 tag whose character id has no names writes nothing. */
  lemma UnmappedTagWritesNothing(t: Tag, m: AssetMap, base: string)
    requires t.code == DefineBinaryData && |t.data| >= 2
    requires ReadUInt16LE(t.data).value !in m
    ensures ExtractXml([t], m, base).Ok? && ExtractXml([t], m, base).value == []
  {
    assert [t][1..] == [];
  }

  // ---------------------------------------------------------------------------
  // Images (`extractSwfImages`)

  /** The number of images written: one per (image, mapped name) pair. */
  function ImageCount(pictures: seq<Picture>, m: AssetMap): nat
  {
    if |pictures| == 0 then 0 else |Get(m, pictures[0].characterId)| + ImageCount(pictures[1..], m)
  }

  /** `extractSwfImages`: for each extracted image, one `.png` per name mapped to
      its character id, in image order. */
  function ExtractImages(pictures: seq<Picture>, m: AssetMap, base: string): (r: seq<Output>)
    ensures |r| == ImageCount(pictures, m)
    decreases |pictures|
  {
    if |pictures| == 0 then []
    else
      var p := pictures[0];
      NamedOutputs(Get(m, p.characterId), base, ".png", p.imgData) + ExtractImages(pictures[1..], m, base)
  }

  /** Extracting images from a concatenation is extracting from the parts one
      after the other. */
  lemma {:induction false} ExtractImagesAppend(a: seq<Picture>, b: seq<Picture>, m: AssetMap, base: string)
    ensures ExtractImages(a + b, m, base) == ExtractImages(a, m, base) + ExtractImages(b, m, base)
    decreases |a|
  {
    if |a| == 0 {
      assert a + b == b;
    } else {
      assert (a + b)[0] == a[0];
      assert (a + b)[1..] == a[1..] + b;
      ExtractImagesAppend(a[1..], b, m, base);
      var head := NamedOutputs(Get(m, a[0].characterId), base, ".png", a[0].imgData);
      ConcatAssociative(head, ExtractImages(a[1..], m, base), ExtractImages(b, m, base));
    }
  }

  /** One image gives one `.png` per name mapped to its character id, in name
      order, each holding the image's data; with `ExtractImagesAppend` this fixes
      every image output and its position. */
  lemma ImageOutputs(p: Picture, m: AssetMap, base: string)
    ensures ExtractImages([p], m, base) == NamedOutputs(Get(m, p.characterId), base, ".png", p.imgData)
  {
    assert [p][1..] == [];
    var head := NamedOutputs(Get(m, p.characterId), base, ".png", p.imgData);
    assert head + [] == head;
  }

  /** An image output: one extracted image's data under one of that image's names. */
  ghost predicate NamedPicture(o: Output, pictures: seq<Picture>, m: AssetMap, base: string)
  {
    exists i, k :: 0 <= i < |pictures| && 0 <= k < |Get(m, pictures[i].characterId)|
      && o == Output(OutputName(Get(m, pictures[i].characterId)[k], base, ".png"), pictures[i].imgData)
  }

  /** Every written image is the data of an extracted image under one of that
      image's names. */
  lemma {:induction false} ImagesAreNamedPictures(pictures: seq<Picture>, m: AssetMap, base: string)
    ensures forall o :: o in ExtractImages(pictures, m, base) ==> NamedPicture(o, pictures, m, base)
    decreases |pictures|
  {
    if |pictures| > 0 {
      ImagesAreNamedPictures(pictures[1..], m, base);
      var p := pictures[0];
      var head := NamedOutputs(Get(m, p.characterId), base, ".png", p.imgData);
      var tail := ExtractImages(pictures[1..], m, base);
      forall o | o in ExtractImages(pictures, m, base)
        ensures NamedPicture(o, pictures, m, base)
      {
        if o in head {
          var k :| 0 <= k < |head| && head[k] == o;
          assert 0 <= 0 < |pictures| && 0 <= k < |Get(m, pictures[0].characterId)|;
        } else {
          assert o in tail;
          var i, k :| 0 <= i < |pictures[1..]| && 0 <= k < |Get(m, pictures[1..][i].characterId)|
            && o == Output(OutputName(Get(m, pictures[1..][i].characterId)[k], base, ".png"), pictures[1..][i].imgData);
          assert pictures[1..][i] == pictures[i + 1];
        }
      }
    }
  }

  // ---------------------------------------------------------------------------
  // The whole dump

  /** The files of `dumpSwf` before zipping: the `.bin` files of the tags, in
      order, then the `.png` files of the images, image by image and name by name. */
  function DumpFiles(tags: seq<Tag>, pictures: seq<Picture>, base: string): (r: Result<seq<Output>, DumpError>)
    ensures r.Ok? <==> forall i :: 0 <= i < |tags| ==> Readable(tags[i])
    ensures r.Ok? ==>
      var xml := ExtractXml(tags, AssetMapOf(tags), base);
      && xml.Ok?
      && |r.value| == |xml.value| + ImageCount(pictures, AssetMapOf(tags))
      && r.value[..|xml.value|] == xml.value
      && r.value[|xml.value|..] == ExtractImages(pictures, AssetMapOf(tags), base)
      && forall j :: |xml.value| <= j < |r.value| ==> NamedPicture(r.value[j], pictures, AssetMapOf(tags), base)
  {
    var m := AssetMapOf(tags);
    match ExtractXml(tags, m, base)
    case Err(e) => Err(e)
    case Ok(xmls) =>
      var images := ExtractImages(pictures, m, base);
      ImagesAreNamedPictures(pictures, m, base);
      AppendedImagesNamed(xmls, images, pictures, m, base);
      Ok(xmls + images)
  }

  lemma AppendedImagesNamed(xmls: seq<Output>, images: seq<Output>, pictures: seq<Picture>, m: AssetMap, base: string)
    requires forall o :: o in images ==> NamedPicture(o, pictures, m, base)
    ensures (xmls + images)[..|xmls|] == xmls
    ensures (xmls + images)[|xmls|..] == images
    ensures forall j :: |xmls| <= j < |xmls + images| ==> NamedPicture((xmls + images)[j], pictures, m, base)
  {
    forall j | |xmls| <= j < |xmls + images|
      ensures NamedPicture((xmls + images)[j], pictures, m, base)
    {
      assert (xmls + images)[j] == images[j - |xmls|];
      assert images[j - |xmls|] in images;
    }
  }
}

=== FILE: HitTexture.dfy ===
/** The bit-packed opacity map of a hit texture and the point query against it
    (src/objects/hitdetection/HitTexture.ts). The canvas read-back becomes a
    row-major RGBA byte sequence; coordinates and resolution are integers. */
module HitTexture {
  import opened Wrappers

  /** A decoded image as `getImageData` returns it: four bytes per pixel, row by row. */
  datatype Image = Image(width: nat, height: nat, rgba: seq<byte>)

  function PixelCount(img: Image): nat
  {
    img.width * img.height
  }

  predicate WellFormed(img: Image)
  {
    |img.rgba| == 4 * PixelCount(img)
  }

  /** Alpha value from which a pixel counts as hit. */
  const AlphaThreshold: int := 25

  /** Pixel `i` (row-major) has an alpha of at least the threshold. */
  predicate Opaque(img: Image, i: nat)
    requires WellFormed(img) && i < PixelCount(img)
  {
    img.rgba[4 * i + 3] >= AlphaThreshold
  }

  /** `Math.ceil(n / 32)`: words needed for `n` bits. */
  function WordCount(n: nat): nat
  {
    (n + 31) / 32
  }

  /** `word & (1 << b)` is non-zero. */
  predicate BitSet(word: bv32, b: bv5)
  {
    word & (1 << b) != 0
  }

  /** Bit `i % 32` of word `i / 32`. */
  predicate Bit(words: seq<bv32>, i: nat)
    requires i < 32 * |words|
  {
    BitSet(words[i / 32], (i % 32) as bv5)
  }

  /** `hm` is the hit map of `img`: one bit per pixel, set exactly for the opaque
      pixels, in `ceil(w*h/32)` words whose bits past the last pixel are clear. */
  predicate IsHitMapOf(hm: seq<bv32>, img: Image)
    requires WellFormed(img)
  {
    && |hm| == WordCount(PixelCount(img))
    && forall i :: 0 <= i < 32 * |hm| ==> (Bit(hm, i) <==> i < PixelCount(img) && Opaque(img, i))
  }

  /** Or-ing in the mask of bit `b` sets bit `b` and leaves every other bit as it was. */
  lemma OrBit(w: bv32, b: bv5, c: bv5)
    ensures BitSet(w | (1 << b), c) <==> c == b || BitSet(w, c)
  {
  }

  lemma SmallToBv5(x: nat)
    requires x < 32
    ensures (x as bv5) as int == x
  {
  }

  lemma Bv5Injective(b: nat, c: nat)
    requires b < 32 && c < 32
    ensures (b as bv5 == c as bv5) <==> b == c
  {
    SmallToBv5(b);
    SmallToBv5(c);
  }

  function SetBit(words: seq<bv32>, i: nat): (r: seq<bv32>)
    requires i < 32 * |words|
    ensures |r| == |words|
  {
    words[i / 32 := words[i / 32] | (1 << ((i % 32) as bv5))]
  }

  lemma SetBitAt(words: seq<bv32>, i: nat, j: nat)
    requires i < 32 * |words| && j < 32 * |words|
    ensures Bit(SetBit(words, i), j) <==> j == i || Bit(words, j)
  {
    var q := i / 32;
    if j / 32 == q {
      assert SetBit(words, i)[q] == words[q] | (1 << ((i % 32) as bv5));
      OrBit(words[q], (i % 32) as bv5, (j % 32) as bv5);
      Bv5Injective(i % 32, j % 32);
      assert j == 32 * q + j % 32 && i == 32 * q + i % 32;
    } else {
      assert SetBit(words, i)[j / 32] == words[j / 32];
      assert j != i;
    }
  }

  lemma SetBitEffect(words: seq<bv32>, i: nat)
    requires i < 32 * |words|
    ensures forall j :: 0 <= j < 32 * |words| ==> (Bit(SetBit(words, i), j) <==> j == i || Bit(words, j))
  {
    forall j | 0 <= j < 32 * |words|
      ensures Bit(SetBit(words, i), j) <==> j == i || Bit(words, j)
    {
      SetBitAt(words, i, j);
    }
  }

  /** `generateHitMap`: one pass over the pixels, setting the bit of every pixel
      whose alpha reaches the threshold. */
  method GenerateHitMap(img: Image) returns (hm: seq<bv32>)
    requires WellFormed(img)
    ensures IsHitMapOf(hm, img)
  {
    var n := PixelCount(img);
    hm := seq(WordCount(n), _ => 0 as bv32);
    var i := 0;
    while i < n
      invariant 0 <= i <= n
      invariant |hm| == WordCount(n)
      invariant forall j :: 0 <= j < 32 * |hm| ==> (Bit(hm, j) <==> j < i && Opaque(img, j))
    {
      if img.rgba[i * 4 + 3] >= AlphaThreshold {
        SetBitEffect(hm, i);
        hm := SetBit(hm, i);
      }
      i := i + 1;
    }
  }

  // ---------------------------------------------------------------------------
  // Querying a point

  /** A texture region of a base image, the base texture's width and resolution,
      and the hit map once it has been built (`_cachedHitmap`). The hit map's rows
      are `image.width` pixels long, while `hits` strides by `baseWidth`; the two
      agree at resolution 1. */
  datatype HitTexture = HitTexture(
    image: Image,
    baseWidth: int,
    frameX: int,
    frameY: int,
    resolution: int,
    cached: Option<seq<bv32>>)

  /** A cached hit map, if any, is the hit map of the texture's image. */
  predicate CacheValid(t: HitTexture)
  {
    WellFormed(t.image) && (t.cached.Some? ==> IsHitMapOf(t.cached.value, t.image))
  }

  /** The flat pixel index `hits` computes for the point `(x, y)` drawn at `(tx, ty)`:
      texture-local coordinates (x reflected about `tx` when mirrored), scaled by
      the resolution, offset by the frame origin, then `dx + dy * baseWidth`. */
  function QueryIndex(t: HitTexture, x: int, y: int, tx: int, ty: int, mirror: bool): int
  {
    var lx := if mirror then -(x - tx) else x - tx;
    var dx := t.frameX + lx * t.resolution;
    var dy := t.frameY + (y - ty) * t.resolution;
    dx + dy * t.baseWidth
  }

  /** The pixel at flat index `ind` exists and is opaque. */
  predicate PixelHit(img: Image, ind: int)
    requires WellFormed(img)
  {
    0 <= ind < PixelCount(img) && Opaque(img, ind)
  }

  /** The bit lookup of `hits` for a non-negative index: a word past the end of the
      map is `undefined`, which reads as no hit. A negative index reads as no hit. */
  predicate Lookup(hm: seq<bv32>, ind: int)
  {
    0 <= ind < 32 * |hm| && Bit(hm, ind)
  }

  /** Build/query agreement: looking an index up in the hit map of an image answers
      whether that index is a pixel of the image and the pixel is opaque. */
  lemma LookupAgreement(hm: seq<bv32>, img: Image, ind: int)
    requires WellFormed(img) && IsHitMapOf(hm, img)
    ensures Lookup(hm, ind) <==> PixelHit(img, ind)
  {
    if 0 <= ind < PixelCount(img) {
      assert ind < 32 * |hm|;
    }
  }

  /** Two hit maps of the same image answer every lookup alike, so it does not
      matter which query built the cached one. */
  lemma HitMapsAgree(h1: seq<bv32>, h2: seq<bv32>, img: Image, ind: int)
    requires WellFormed(img) && IsHitMapOf(h1, img) && IsHitMapOf(h2, img)
    ensures Lookup(h1, ind) == Lookup(h2, ind)
  {
    LookupAgreement(h1, img, ind);
    LookupAgreement(h2, img, ind);
  }

  /** `_getHitMap`: the cached hit map, or a newly built one that is then cached. */
  method GetHitMap(t: HitTexture) returns (t': HitTexture, hm: seq<bv32>)
    requires CacheValid(t)
    ensures IsHitMapOf(hm, t.image)
    ensures t' == t.(cached := Some(hm)) && CacheValid(t')
    ensures t.cached.Some? ==> hm == t.cached.value
  {
    if t.cached.Some? {
      hm := t.cached.value;
    } else {
      hm := GenerateHitMap(t.image);
    }
    t' := t.(cached := Some(hm));
  }

  /** `hits`: whether the point falls on an opaque pixel of the texture. */
  method Hits(t: HitTexture, x: int, y: int, tx: int, ty: int, mirror: bool) returns (t': HitTexture, hit: bool)
    requires CacheValid(t)
    ensures hit <==> PixelHit(t.image, QueryIndex(t, x, y, tx, ty, mirror))
    ensures CacheValid(t') && t'.cached.Some? && t' == t.(cached := t'.cached)
    ensures t.cached.Some? ==> t' == t
    ensures var ind := QueryIndex(t, x, y, tx, ty, mirror);
      0 <= ind < 0x8000_0000 ==> (hit <==> LookupAsWritten(t'.cached.value, ind))
  {
    var hm;
    t', hm := GetHitMap(t);
    var ind := QueryIndex(t, x, y, tx, ty, mirror);
    hit := Lookup(hm, ind);
    LookupAgreement(hm, t.image, ind);
    if 0 <= ind < 0x8000_0000 {
      LookupAsWrittenNonNegative(hm, ind);
    }
  }

  /** A mirrored query at `x` is the plain query at `x` reflected about `tx`. */
  lemma MirrorReflects(t: HitTexture, x: int, y: int, tx: int, ty: int)
    ensures QueryIndex(t, x, y, tx, ty, true) == QueryIndex(t, 2 * tx - x, y, tx, ty, false)
  {
  }

  // ---------------------------------------------------------------------------
  // The lookup as `hits` writes it, for any 32-bit index

  /** JavaScript `(a / b) | 0` for a 32-bit `a` and positive `b`: division truncated toward zero. */
  function TruncDiv(a: int, b: int): int
    requires b > 0
  {
    if a >= 0 then a / b else -((-a) / b)
  }

  /** JavaScript `a % b`: the remainder takes the sign of `a`. */
  function TruncRem(a: int, b: int): int
    requires b > 0
  {
    a - b * TruncDiv(a, b)
  }

  /** `(hitmap[(ind / 32) | 0] & (1 << (ind % 32))) !== 0` with JavaScript semantics:
      the shift count is taken modulo 32 and a word outside the array is
      `undefined`, which `&` reads as 0. */
  predicate LookupAsWritten(hm: seq<bv32>, ind: int)
    requires -0x8000_0000 <= ind < 0x8000_0000
  {
    var word := TruncDiv(ind, 32);
    var shift := (TruncRem(ind, 32) % 32) as bv5;
    var value := if 0 <= word < |hm| then hm[word] else 0;
    value & (1 << shift) != 0
  }

  /** For a negative index the lookup in `hits` reads word 0: an index from -31 to
      -1 answers with bit `32 + ind`, any lower index with no hit. */
  lemma LookupAsWrittenNegative(hm: seq<bv32>, ind: int)
    requires -0x8000_0000 <= ind < 0
    ensures -32 < ind ==> (LookupAsWritten(hm, ind) <==> |hm| > 0 && Bit(hm, 32 + ind))
    ensures ind <= -32 ==> !LookupAsWritten(hm, ind)
  {
    NegativeIndexSplit(ind);
    var shift := (TruncRem(ind, 32) % 32) as bv5;
    if -32 < ind {
      assert shift == (32 + ind) as bv5;
      if |hm| > 0 {
        assert LookupAsWritten(hm, ind) == BitSet(hm[0], shift);
      } else {
        ZeroWordNoBit(shift);
      }
    } else {
      ZeroWordNoBit(shift);
    }
  }

  lemma ZeroWordNoBit(shift: bv5)
    ensures (0 as bv32) & (1 << shift) == 0
  {
  }

  /** How the truncating split treats a negative index: from -31 to -1 it names
      bit `32 + ind` of word 0; below that, a negative word. */
  lemma NegativeIndexSplit(ind: int)
    ensures -32 < ind < 0 ==>
      && TruncDiv(ind, 32) == 0 && TruncRem(ind, 32) % 32 == 32 + ind
      && (32 + ind) / 32 == 0 && (32 + ind) % 32 == 32 + ind
    ensures ind <= -32 ==> TruncDiv(ind, 32) < 0
  {
  }

  /** For a non-negative index the lookup in `hits` is the one modelled above. */
  lemma LookupAsWrittenNonNegative(hm: seq<bv32>, ind: int)
    requires 0 <= ind < 0x8000_0000
    ensures LookupAsWritten(hm, ind) == Lookup(hm, ind)
  {
  }

  /** A 32x1 image whose only opaque pixel is the last one of the row. */
  function LastPixelOnly(): (img: Image)
    ensures WellFormed(img)
  {
    Image(32, 1, seq(128, i => if i == 127 then 255 else 0))
  }

  /** The lookup in `hits` at index -1 (the point one pixel left of the first row)
      reads bit 31 of word 0, so it reports a hit on a point outside the image,
      which the lookup with a bounds check does not. */
  lemma NegativeIndexAliases(hm: seq<bv32>)
    requires IsHitMapOf(hm, LastPixelOnly())
    ensures LookupAsWritten(hm, -1)
    ensures !Lookup(hm, -1) && !PixelHit(LastPixelOnly(), -1)
  {
    var img := LastPixelOnly();
    assert Opaque(img, 31);
    assert Bit(hm, 31);
  }

  /** The query that produces index -1: at resolution 1 and frame origin (0, 0),
      the point one pixel left of where the texture is drawn. */
  lemma QueryLeftOfTexture(t: HitTexture, tx: int, ty: int)
    requires t.frameX == 0 && t.frameY == 0 && t.resolution == 1
    ensures QueryIndex(t, tx - 1, ty, tx, ty, false) == -1
  {
  }
}

=== FILE: LookKey.dfy ===
/** The draw-definition cache key derived from look options
    (`_getLookOptionsString` in src/objects/avatar/AvatarLoader.ts), and a reader
    for that key which shows the key loses none of the fields it is built from. */
module LookKey {
  import opened Wrappers
  import opened Strings

  /** The look options a caller passes to the loader. `actions` is kept in the
      iteration order of the loader's `Set`; `initial` and `skipCaching` are
      loader-only flags. */
  datatype LookOptions = LookOptions(
    actions: seq<string>,
    direction: int,
    headDirection: int,
    item: Option<int>,
    look: string,
    effect: Option<string>,
    initial: bool,
    skipCaching: bool)

  /** The fields of the look options the key is built from. */
  datatype KeyFields = KeyFields(
    actions: seq<string>,
    direction: int,
    headDirection: int,
    item: Option<int>,
    look: string,
    effect: Option<string>)

  function Significant(o: LookOptions): KeyFields
  {
    KeyFields(o.actions, o.direction, o.headDirection, o.item, o.look, o.effect)
  }

  /** One `name(content)` piece of the key. */
  datatype Segment = Segment(name: string, content: string)

  function Render(seg: Segment): string
  {
    seg.name + "(" + seg.content + ")"
  }

  function RenderAll(segs: seq<Segment>): (r: seq<string>)
    ensures |r| == |segs|
    ensures forall i :: 0 <= i < |segs| ==> r[i] == Render(segs[i])
  {
    if |segs| == 0 then [] else [Render(segs[0])] + RenderAll(segs[1..])
  }

  function ActionsPart(f: KeyFields): seq<Segment>
  {
    if |f.actions| > 0 then [Segment("actions", Join(f.actions, ','))] else []
  }

  function ItemPart(f: KeyFields): seq<Segment>
  {
    if f.item.Some? then [Segment("item", IntToString(f.item.value))] else []
  }

  function EffectPart(f: KeyFields): seq<Segment>
  {
    if f.effect.Some? then [Segment("effect", f.effect.value)] else []
  }

  /** The key's pieces in their fixed order; optional pieces only when present. */
  function Segments(f: KeyFields): seq<Segment>
  {
    ActionsPart(f)
    + [Segment("direction", IntToString(f.direction)),
       Segment("headdirection", IntToString(f.headDirection))]
    + ItemPart(f)
    + [Segment("look", f.look)]
    + EffectPart(f)
  }

  function FieldsKey(f: KeyFields): string
  {
    Join(RenderAll(Segments(f)), ',')
  }


  // ---------------------------------------------------------------------------
  // Reading a key back

  /** Reads `name(content),name(content),...`; a name runs up to the first `(`
      and a content up to the first `)`. */
  function ParseSegments(s: string): Option<seq<Segment>>
    decreases |s|
  {
    match SplitAt(s, '(')
    case None => None
    case Some((name, rest)) =>
      match SplitAt(rest, ')')
      case None => None
      case Some((content, tail)) =>
        if |tail| == 0 then Some([Segment(name, content)])
        else if tail[0] != ',' then None
        else match ParseSegments(tail[1..])
          case None => None
          case Some(more) => Some([Segment(name, content)] + more)
  }

  /** The content of the first segment when it carries `name`, and the segments after it. */
  function TakeOptional(segs: seq<Segment>, name: string): (Option<string>, seq<Segment>)
  {
    if |segs| > 0 && segs[0].name == name then (Some(segs[0].content), segs[1..])
    else (None, segs)
  }

  function ParseOptionalInt(content: Option<string>): Option<Option<int>>
  {
    match content
    case None => Some(None)
    case Some(text) =>
      match ParseInt(text)
      case None => None
      case Some(v) => Some(Some(v))
  }

  /** Recovers the key fields from the segments in the order `Segments` writes them. */
  function Interpret(segs: seq<Segment>): Option<KeyFields>
  {
    var (actions, s1) := TakeOptional(segs, "actions");
    var (direction, s2) := TakeOptional(s1, "direction");
    var (headDirection, s3) := TakeOptional(s2, "headdirection");
    var (item, s4) := TakeOptional(s3, "item");
    var (look, s5) := TakeOptional(s4, "look");
    var (effect, s6) := TakeOptional(s5, "effect");
    if direction.None? || headDirection.None? || look.None? || |s6| != 0 then None
    else
      var d := ParseInt(direction.value);
      var h := ParseInt(headDirection.value);
      var i := ParseOptionalInt(item);
      if d.None? || h.None? || i.None? then None
      else
        var acts := if actions.Some? then Split(actions.value, ',') else [];
        Some(KeyFields(acts, d.value, h.value, i.value, look.value, effect))
  }

  function ParseKey(key: string): Option<KeyFields>
  {
    match ParseSegments(key)
    case None => None
    case Some(segs) => Interpret(segs)
  }

  /** The key can be read back when no action name holds `,` or `)` and neither
      the look nor the effect holds `)`. The loader's action identifiers, figure
      strings and effect ids meet this. */
  predicate WellFormed(f: KeyFields)
  {
    && (forall i :: 0 <= i < |f.actions| ==> ',' !in f.actions[i] && ')' !in f.actions[i])
    && ')' !in f.look
    && (f.effect.Some? ==> ')' !in f.effect.value)
  }

  predicate Readable(segs: seq<Segment>)
  {
    forall i :: 0 <= i < |segs| ==> '(' !in segs[i].name && ')' !in segs[i].content
  }

  lemma {:induction false} ParseRendered(segs: seq<Segment>)
    requires |segs| > 0 && Readable(segs)
    ensures ParseSegments(Join(RenderAll(segs), ',')) == Some(segs)
  {
    var head := segs[0];
    var tail: string := if |segs| == 1 then [] else [','] + Join(RenderAll(segs[1..]), ',');
    var rendered := RenderAll(segs);
    var text := Join(rendered, ',');
    assert rendered[0] == Render(head);
    if |segs| == 1 {
      assert text == Render(head);
    } else {
      assert rendered[1..] == RenderAll(segs[1..]);
      assert text == Render(head) + tail;
    }
    var rest := head.content + [')'] + tail;
    assert text == head.name + ['('] + rest;
    SplitAtConcat(head.name, '(', rest);
    SplitAtConcat(head.content, ')', tail);
    assert SplitAt(text, '(') == Some((head.name, rest));
    assert SplitAt(rest, ')') == Some((head.content, tail));
    if |segs| > 1 {
      assert tail[0] == ',';
      assert tail[1..] == Join(RenderAll(segs[1..]), ',');
      ParseRendered(segs[1..]);
      assert ParseSegments(tail[1..]) == Some(segs[1..]);
      assert [head] + segs[1..] == segs;
    } else {
      assert segs == [head];
    }
  }

  lemma IntTextReadable(n: int)
    ensures ')' !in IntToString(n)
  {
    var s := IntToString(n);
    assert forall i :: 0 <= i < |s| ==> s[i] != ')';
  }

  lemma ReadableConcat(a: seq<Segment>, b: seq<Segment>)
    requires Readable(a) && Readable(b)
    ensures Readable(a + b)
  {
    forall i | 0 <= i < |a + b|
      ensures '(' !in (a + b)[i].name && ')' !in (a + b)[i].content
    {
      if i >= |a| {
        assert (a + b)[i] == b[i - |a|];
      }
    }
  }

  lemma SegmentReadable(name: string, content: string)
    requires '(' !in name && ')' !in content
    ensures Readable([Segment(name, content)])
  {
  }

  lemma ActionsPartReadable(f: KeyFields)
    requires WellFormed(f)
    ensures Readable(ActionsPart(f))
  {
    if |f.actions| > 0 {
      JoinAvoids(f.actions, ',', ')');
      SegmentReadable("actions", Join(f.actions, ','));
    }
  }

  lemma DirectionsReadable(f: KeyFields)
    ensures Readable([Segment("direction", IntToString(f.direction)),
                      Segment("headdirection", IntToString(f.headDirection))])
  {
    IntTextReadable(f.direction);
    IntTextReadable(f.headDirection);
  }

  lemma ItemPartReadable(f: KeyFields)
    ensures Readable(ItemPart(f))
  {
    if f.item.Some? {
      IntTextReadable(f.item.value);
      SegmentReadable("item", IntToString(f.item.value));
    }
  }

  lemma SegmentsReadable(f: KeyFields)
    requires WellFormed(f)
    ensures Readable(Segments(f))
  {
    var acts := ActionsPart(f);
    var dirs := [Segment("direction", IntToString(f.direction)),
                 Segment("headdirection", IntToString(f.headDirection))];
    var look := [Segment("look", f.look)];
    ActionsPartReadable(f);
    DirectionsReadable(f);
    ItemPartReadable(f);
    SegmentReadable("look", f.look);
    ReadableConcat(acts, dirs);
    ReadableConcat(acts + dirs, ItemPart(f));
    ReadableConcat(acts + dirs + ItemPart(f), look);
    ReadableConcat(acts + dirs + ItemPart(f) + look, EffectPart(f));
  }

  function AfterDirection(f: KeyFields): seq<Segment>
  {
    [Segment("headdirection", IntToString(f.headDirection))] + ItemPart(f) + [Segment("look", f.look)] + EffectPart(f)
  }

  lemma TakeHead(x: Segment, rest: seq<Segment>, name: string)
    ensures TakeOptional([x] + rest, name)
      == if x.name == name then (Some(x.content), rest) else (None, [x] + rest)
  {
    assert ([x] + rest)[1..] == rest;
  }

  lemma TakeLeadingSegments(f: KeyFields)
    ensures TakeOptional(Segments(f), "actions")
      == (if |f.actions| > 0 then Some(Join(f.actions, ',')) else None,
          [Segment("direction", IntToString(f.direction))] + AfterDirection(f))
    ensures TakeOptional([Segment("direction", IntToString(f.direction))] + AfterDirection(f), "direction")
      == (Some(IntToString(f.direction)), AfterDirection(f))
    ensures TakeOptional(AfterDirection(f), "headdirection")
      == (Some(IntToString(f.headDirection)), ItemPart(f) + [Segment("look", f.look)] + EffectPart(f))
  {
    var d := Segment("direction", IntToString(f.direction));
    var rest := [d] + AfterDirection(f);
    if |f.actions| > 0 {
      var act := Segment("actions", Join(f.actions, ','));
      assert Segments(f) == [act] + rest;
      TakeHead(act, rest, "actions");
    } else {
      assert Segments(f) == rest;
      assert |"direction"| != |"actions"|;
      TakeHead(d, AfterDirection(f), "actions");
    }
    TakeHead(d, AfterDirection(f), "direction");
    var tail := ItemPart(f) + [Segment("look", f.look)] + EffectPart(f);
    assert AfterDirection(f) == [Segment("headdirection", IntToString(f.headDirection))] + tail;
    TakeHead(Segment("headdirection", IntToString(f.headDirection)), tail, "headdirection");
  }

  lemma TakeTrailingSegments(f: KeyFields)
    ensures TakeOptional(ItemPart(f) + [Segment("look", f.look)] + EffectPart(f), "item")
      == (if f.item.Some? then Some(IntToString(f.item.value)) else None,
          [Segment("look", f.look)] + EffectPart(f))
    ensures TakeOptional([Segment("look", f.look)] + EffectPart(f), "look") == (Some(f.look), EffectPart(f))
    ensures TakeOptional(EffectPart(f), "effect") == (f.effect, [])
  {
    var l := Segment("look", f.look);
    var s4 := [l] + EffectPart(f);
    if f.item.Some? {
      var it := Segment("item", IntToString(f.item.value));
      assert ItemPart(f) + [l] + EffectPart(f) == [it] + s4;
      TakeHead(it, s4, "item");
    } else {
      assert ItemPart(f) + [l] + EffectPart(f) == s4;
      assert "look"[0] != "item"[0];
      TakeHead(l, EffectPart(f), "item");
    }
    TakeHead(l, EffectPart(f), "look");
    if f.effect.Some? {
      var e := Segment("effect", f.effect.value);
      assert EffectPart(f) == [e] + [];
      TakeHead(e, [], "effect");
    }
  }

  lemma InterpretSegments(f: KeyFields)
    requires WellFormed(f)
    ensures Interpret(Segments(f)) == Some(f)
  {
    IntStringRoundTrip(f.direction);
    IntStringRoundTrip(f.headDirection);
    if f.item.Some? {
      IntStringRoundTrip(f.item.value);
    }
    if |f.actions| > 0 {
      SplitJoin(f.actions, ',');
    }
    TakeLeadingSegments(f);
    TakeTrailingSegments(f);
  }

  /** Round trip: reading the key of well-formed fields gives back exactly those fields. */
  lemma KeyRoundTrip(f: KeyFields)
    requires WellFormed(f)
    ensures ParseKey(FieldsKey(f)) == Some(f)
  {
    SegmentsReadable(f);
    ParseRendered(Segments(f));
    InterpretSegments(f);
  }

  /** The key depends on nothing but actions (in order), direction, head direction,
      item, look and effect: any two options agreeing on those share it, whatever
      their `initial` and `skipCaching` flags. */
  lemma KeyDependsOnlyOnFields(o1: LookOptions, o2: LookOptions)
    ensures Significant(o1) == Significant(o2) ==> LookOptionsKey(o1) == LookOptionsKey(o2)
    ensures LookOptionsKey(o1) == LookOptionsKey(o1.(initial := !o1.initial))
    ensures LookOptionsKey(o1) == LookOptionsKey(o1.(skipCaching := !o1.skipCaching))
  {
  }

  /** Without the separator restrictions distinct fields can share a key: one
      action `a,b` renders like the two actions `a` and `b`. */
  lemma CommaInActionCollides(f: KeyFields)
    ensures FieldsKey(f.(actions := ["a,b"])) == FieldsKey(f.(actions := ["a", "b"]))
    ensures f.(actions := ["a,b"]) != f.(actions := ["a", "b"])
  {
    assert Join(["a,b"], ',') == "a,b";
    assert Join(["a", "b"], ',') == "a" + [','] + "b" == "a,b";
    assert ["a,b"] != ["a", "b"] by {
      assert |["a,b"]| != |["a", "b"]|;
    }
  }

  /** Two look options whose fields avoid the separators share a cache key exactly
      when they agree on actions (in order), direction, head direction, item, look
      and effect. */
  lemma KeyIdentifiesFields(o1: LookOptions, o2: LookOptions)
    requires WellFormed(Significant(o1)) && WellFormed(Significant(o2))
    ensures LookOptionsKey(o1) == LookOptionsKey(o2) <==> Significant(o1) == Significant(o2)
  {
    KeyRoundTrip(Significant(o1));
    KeyRoundTrip(Significant(o2));
  }

  /** `_getLookOptionsString`: the cache key of a look options value. When the
      fields avoid the separators the key reads back as exactly those fields. */
  function LookOptionsKey(o: LookOptions): (r: string)
    ensures WellFormed(Significant(o)) ==> ParseKey(r) == Some(Significant(o))
  {
    KeyRoundTripWhen(Significant(o));
    FieldsKey(Significant(o))
  }

  lemma KeyRoundTripWhen(f: KeyFields)
    ensures WellFormed(f) ==> ParseKey(FieldsKey(f)) == Some(f)
  {
    if WellFormed(f) {
      KeyRoundTrip(f);
    }
  }
}

=== FILE: Memo.dfy ===
/** The "insert if absent, else return the existing entry" cache the avatar loader
    keeps for asset bundles, decoded textures and effect data. The value stored for
    a key is the pending handle the provider returned; `requests` records, in order,
    every key the provider was called with, so that "at most one fetch per key"
    is a checkable fact. */
module Memo {

  datatype Memo<V> = Memo(entries: map<string, V>, requests: seq<string>)

  function Empty<V>(): Memo<V>
  {
    Memo(map[], [])
  }

  predicate Distinct(s: seq<string>)
  {
    forall i, j :: 0 <= i < j < |s| ==> s[i] != s[j]
  }

  function Elems(s: seq<string>): set<string>
  {
    set x | x in s
  }

  /** The provider was called once for every cached key and for nothing else. */
  predicate Valid<V>(m: Memo<V>)
  {
    Distinct(m.requests) && m.entries.Keys == Elems(m.requests)
  }

  /** `m2` keeps every entry of `m1` unchanged: nothing is overwritten or evicted. */
  ghost predicate Extends<V>(m1: Memo<V>, m2: Memo<V>)
  {
    && (forall k :: k in m1.entries ==> k in m2.entries && m2.entries[k] == m1.entries[k])
    && m1.requests <= m2.requests
  }

  /** Looks `key` up; on a miss calls the provider `create` once (with the call's
      ordinal, which makes every pending handle distinct) and stores its handle. */
  function GetOrCreate<V>(m: Memo<V>, key: string, create: (string, nat) -> V): (r: (Memo<V>, V))
    ensures key in m.entries ==> r == (m, m.entries[key])
    ensures key !in m.entries ==> r.1 == create(key, |m.requests|) && r.0.requests == m.requests + [key]
    ensures r.0.entries == m.entries[key := r.1]
    ensures Extends(m, r.0)
    ensures Valid(m) ==> Valid(r.0)
  {
    if key in m.entries then (m, m.entries[key])
    else
      var v := create(key, |m.requests|);
      (Memo(m.entries[key := v], m.requests + [key]), v)
  }

  lemma {:induction false} DistinctCount(s: seq<string>)
    requires Distinct(s)
    ensures |Elems(s)| == |s|
  {
    if |s| > 0 {
      var init := s[..|s| - 1];
      assert Elems(s) == Elems(init) + {s[|s| - 1]};
      assert s[|s| - 1] !in Elems(init);
      DistinctCount(init);
    }
  }

  /** In a valid cache the provider has been called exactly as many times as
      there are cached keys. */
  lemma RequestsMatchEntries<V>(m: Memo<V>)
    requires Valid(m)
    ensures |m.requests| == |m.entries.Keys|
  {
    DistinctCount(m.requests);
  }
}

=== FILE: RoomCamera.dfy ===
/** The drag state machine of the room camera (src/objects/room/RoomCamera.ts):
    pointer events move the camera between four states, and the displayed
    position is derived from the state and two offsets. */
module RoomCamera {

  datatype Vec = Vec(x: real, y: real)

  const Zero: Vec := Vec(0.0, 0.0)

  function Add(a: Vec, b: Vec): Vec { Vec(a.x + b.x, a.y + b.y) }

  function Sub(a: Vec, b: Vec): Vec { Vec(a.x - b.x, a.y - b.y) }

  /** The four tagged states. A drag entered from a pointer move has no
      `skipBoundsCheck`, which the model writes as `false`. */
  datatype State =
    | Waiting
    | WaitForDistance(start: Vec, pointerId: int)
    | Dragging(current: Vec, start: Vec, pointerId: int, skipBoundsCheck: bool)
    | AnimateZero(current: Vec, start: Vec)

  datatype Camera = Camera(state: State, offsets: Vec, animatedOffsets: Vec)

  /** Where the room sits in the parent (parent position plus room position),
      the room's size, and the size of the parent bounds. */
  datatype Scene = Scene(
    roomX: real,
    roomY: real,
    roomWidth: real,
    roomHeight: real,
    parentWidth: real,
    parentHeight: real)

  /** The client-to-local conversion inputs: the canvas bounding-rect origin and
      the translation of the parent's world transform. */
  datatype View = View(box: Vec, tx: real, ty: real)

  function Initial(): Camera
  {
    Camera(Waiting, Zero, Zero)
  }

  /** The camera keeps exactly one offset pair live: while animating back, the
      committed offsets are zero; otherwise the animated offsets are zero. */
  predicate Inv(cam: Camera)
  {
    (cam.state.AnimateZero? ==> cam.offsets == Zero)
    && (!cam.state.AnimateZero? ==> cam.animatedOffsets == Zero)
  }

  /** `_updatePosition`: the position the room container is drawn at. Outside a
      drag only one offset pair is live, so the room sits at their sum; a drag
      that has not travelled shows the committed offsets. */
  function Position(cam: Camera): (r: Vec)
    ensures Inv(cam) && !cam.state.Dragging? ==> r == Add(cam.offsets, cam.animatedOffsets)
    ensures cam.state.Dragging? && cam.state.current == cam.state.start ==> r == cam.offsets
  {
    match cam.state
    case Dragging(current, start, _, _) => Add(cam.offsets, Sub(current, start))
    case AnimateZero(_, _) => cam.animatedOffsets
    case _ => cam.offsets
  }

  // ---------------------------------------------------------------------------
  // Bounds

  /** The open intervals (a0, a1) and (b0, b1) share a point. */
  predicate Overlap(a0: real, a1: real, b0: real, b1: real)
  {
    a0 < b1 && b0 < a1
  }

  /** Reference definition: the room's extent, shifted by `o`, overlaps the
      parent's extent on both axes. */
  predicate Visible(scene: Scene, o: Vec)
  {
    Overlap(scene.roomX + o.x, scene.roomX + scene.roomWidth + o.x, 0.0, scene.parentWidth)
    && Overlap(scene.roomY + o.y, scene.roomY + scene.roomHeight + o.y, 0.0, scene.parentHeight)
  }

  /** `_isOutOfBounds`: the room, shifted by `o`, lies entirely left of, right of,
      above or below the parent bounds (touching edges count as outside). */
  predicate OutOfBounds(scene: Scene, o: Vec)
    ensures OutOfBounds(scene, o) <==> !Visible(scene, o)
  {
    scene.roomX + scene.roomWidth + o.x <= 0.0
    || scene.roomX + o.x >= scene.parentWidth
    || scene.roomY + scene.roomHeight + o.y <= 0.0
    || scene.roomY + o.y >= scene.parentHeight
  }

  // ---------------------------------------------------------------------------
  // Transitions

  /** The pointer has travelled at least 10 units from `start` (compared squared). */
  predicate FarEnough(start: Vec, p: Vec)
  {
    var d := Sub(p, start);
    d.x * d.x + d.y * d.y >= 100.0
  }

  /** `_handlePointerDown` on the local position `pos`. */
  function PointerDown(cam: Camera, pos: Vec, id: int): (r: Camera)
    ensures cam.state.Waiting? ==> r == cam.(state := WaitForDistance(pos, id))
    ensures cam.state.AnimateZero? ==>
      r.state == Dragging(pos, pos, id, true)
      && r.offsets == cam.animatedOffsets && r.animatedOffsets == Zero
    ensures cam.state.WaitForDistance? || cam.state.Dragging? ==> r == cam
    ensures Position(r) == Position(cam)
  {
    match cam.state
    case Waiting => cam.(state := WaitForDistance(pos, id))
    case AnimateZero(_, _) => Camera(Dragging(pos, pos, id, true), cam.animatedOffsets, Zero)
    case _ => cam
  }

  /** `_handlePointerMove` on the local position `pos`. */
  function PointerMove(cam: Camera, pos: Vec, id: int): (r: Camera)
    ensures r.offsets == cam.offsets && r.animatedOffsets == cam.animatedOffsets
    ensures cam.state.WaitForDistance? ==>
      if cam.state.pointerId == id && FarEnough(cam.state.start, pos)
      then r.state == Dragging(pos, pos, id, false)
      else r == cam
    ensures cam.state.Dragging? ==>
      if cam.state.pointerId == id
      then r.state == Dragging(pos, cam.state.start, id, cam.state.skipBoundsCheck)
      else r == cam
    ensures cam.state.Waiting? || cam.state.AnimateZero? ==> r == cam
  {
    match cam.state
    case WaitForDistance(start, pid) =>
      if pid == id && FarEnough(start, pos) then cam.(state := Dragging(pos, pos, id, false)) else cam
    case Dragging(_, start, pid, skip) =>
      if pid == id then cam.(state := Dragging(pos, start, pid, skip)) else cam
    case _ => cam
  }

  /** `_stopDragging` followed, when it does not animate back, by `_resetDrag`:
      the drag's final offsets are committed if the room is still visible and the
      drag did not start during an animation; otherwise the camera animates back
      to zero from them. */
  function StopDragging(cam: Camera, scene: Scene): (r: Camera)
    requires cam.state.Dragging?
    ensures var target := Position(cam);
      if OutOfBounds(scene, target) || cam.state.skipBoundsCheck
      then r.state == AnimateZero(cam.state.current, cam.state.start)
        && r.offsets == Zero && r.animatedOffsets == target
      else r == cam.(state := Waiting, offsets := target)
  {
    var target := Add(cam.offsets, Sub(cam.state.current, cam.state.start));
    if OutOfBounds(scene, target) || cam.state.skipBoundsCheck then
      Camera(AnimateZero(cam.state.current, cam.state.start), Zero, target)
    else
      cam.(state := Waiting, offsets := target)
  }

  /** `_handlePointerUp`. */
  function PointerUp(cam: Camera, scene: Scene, id: int): (r: Camera)
    ensures cam.state.Waiting? || cam.state.AnimateZero? ==> r == cam
    ensures (cam.state.WaitForDistance? || cam.state.Dragging?) && cam.state.pointerId != id ==> r == cam
    ensures cam.state.WaitForDistance? && cam.state.pointerId == id ==> r == cam.(state := Waiting)
    ensures cam.state.Dragging? && cam.state.pointerId == id ==> r == StopDragging(cam, scene)
  {
    match cam.state
    case WaitForDistance(_, pid) => if pid == id then cam.(state := Waiting) else cam
    case Dragging(_, _, pid, _) => if pid == id then StopDragging(cam, scene) else cam
    case _ => cam
  }

  // ---------------------------------------------------------------------------
  // Properties of the transitions

  /** A release never commits offsets at which the room is out of view, and it
      commits exactly the position shown at the moment of release. */
  lemma ReleaseCommitsVisibleOffsets(cam: Camera, scene: Scene, id: int)
    requires cam.state.Dragging? && cam.state.pointerId == id
    ensures var r := PointerUp(cam, scene, id);
      r.state.Waiting? ==> r.offsets == Position(cam) && Visible(scene, r.offsets)
    ensures PointerUp(cam, scene, id).state.AnimateZero? <==>
      OutOfBounds(scene, Position(cam)) || cam.state.skipBoundsCheck
  {
    var r := PointerUp(cam, scene, id);
  }

  /** A release shows the room where the drag left it: committing and animating
      back both start from the dragged position. */
  lemma ReleaseKeepsPosition(cam: Camera, scene: Scene, id: int)
    ensures Position(PointerUp(cam, scene, id)) == Position(cam)
  {
  }

  /** A move shifts the shown position by exactly the pointer's travel while
      dragging with that pointer, and leaves it alone otherwise. */
  lemma MoveShiftsPosition(cam: Camera, pos: Vec, id: int)
    ensures cam.state.Dragging? && cam.state.pointerId == id ==>
      Position(PointerMove(cam, pos, id)) == Add(Position(cam), Sub(pos, cam.state.current))
    ensures !(cam.state.Dragging? && cam.state.pointerId == id) ==>
      Position(PointerMove(cam, pos, id)) == Position(cam)
  {
  }

  /** Events from a pointer other than the one that started the gesture change nothing. */
  lemma OtherPointerIgnored(cam: Camera, scene: Scene, pos: Vec, id: int)
    requires cam.state.WaitForDistance? || cam.state.Dragging?
    requires cam.state.pointerId != id
    ensures PointerMove(cam, pos, id) == cam
    ensures PointerUp(cam, scene, id) == cam
    ensures PointerDown(cam, pos, id) == cam
  {
  }

  // ---------------------------------------------------------------------------
  // Event streams

  /** A pointer event in client coordinates. */
  datatype Event =
    | Down(client: Vec, pointerId: int)
    | Move(client: Vec, pointerId: int)
    | Up(pointerId: int)

  /** The local position of a client point: minus the canvas origin and the
      parent's translation on each axis. Pointer-down positions are taken this
      way (`getLocalPosition` of the parent, whose transform is a translation). */
  function ToLocal(v: View, client: Vec): (p: Vec)
  {
    Vec(client.x - v.box.x - v.tx, client.y - v.box.y - v.ty)
  }

  /** The pointer-move conversion as written: the parent's x translation is
      subtracted from both coordinates. */
  function MoveLocalAsWritten(v: View, client: Vec): Vec
  {
    Vec(client.x - v.box.x - v.tx, client.y - v.box.y - v.tx)
  }

  /** One event, with pointer-move positions converted by `ToLocal`. */
  function Step(cam: Camera, scene: Scene, v: View, e: Event): (r: Camera)
    ensures Inv(cam) ==> Inv(r)
  {
    match e
    case Down(c, id) => PointerDown(cam, ToLocal(v, c), id)
    case Move(c, id) => PointerMove(cam, ToLocal(v, c), id)
    case Up(id) => PointerUp(cam, scene, id)
  }

  /** One event, with pointer-move positions converted as written. */
  function StepAsWritten(cam: Camera, scene: Scene, v: View, e: Event): (r: Camera)
    ensures Inv(cam) ==> Inv(r)
  {
    match e
    case Down(c, id) => PointerDown(cam, ToLocal(v, c), id)
    case Move(c, id) => PointerMove(cam, MoveLocalAsWritten(v, c), id)
    case Up(id) => PointerUp(cam, scene, id)
  }

  function Run(cam: Camera, scene: Scene, v: View, events: seq<Event>): (r: Camera)
    decreases |events|
  {
    if |events| == 0 then cam else Run(Step(cam, scene, v, events[0]), scene, v, events[1..])
  }

  /** From the initial camera, any stream of events keeps the invariant. */
  lemma {:induction false} RunKeepsInv(cam: Camera, scene: Scene, v: View, events: seq<Event>)
    requires Inv(cam)
    ensures Inv(Run(cam, scene, v, events))
    decreases |events|
  {
    if |events| > 0 {
      RunKeepsInv(Step(cam, scene, v, events[0]), scene, v, events[1..]);
    }
  }

  lemma InitialInv()
    ensures Inv(Initial()) && Position(Initial()) == Zero
  {
  }

  /** With one conversion for both events, pressing and then moving to the same
      client point leaves the camera waiting for distance. */
  lemma StationaryPointerWaits(cam: Camera, scene: Scene, v: View, c: Vec, id: int)
    requires cam.state.Waiting?
    ensures var r := Step(Step(cam, scene, v, Down(c, id)), scene, v, Move(c, id));
      r.state == WaitForDistance(ToLocal(v, c), id) && r.offsets == cam.offsets
  {
  }

  /** As written, with the parent translated by (20, 0), pressing and then moving
      to the same client point starts a drag: the move position is 20 units
      above the press position (y grows downward). */
  lemma StationaryPointerDragsAsWritten(scene: Scene)
    ensures var v := View(Zero, 20.0, 0.0);
      var c := Vec(50.0, 50.0);
      StepAsWritten(StepAsWritten(Initial(), scene, v, Down(c, 1)), scene, v, Move(c, 1)).state.Dragging?
  {
    var v := View(Zero, 20.0, 0.0);
    var c := Vec(50.0, 50.0);
    var down := StepAsWritten(Initial(), scene, v, Down(c, 1));
    assert down.state == WaitForDistance(Vec(30.0, 50.0), 1);
    assert MoveLocalAsWritten(v, c) == Vec(30.0, 30.0);
    assert Sub(Vec(30.0, 30.0), Vec(30.0, 50.0)) == Vec(0.0, -20.0);
    assert FarEnough(Vec(30.0, 50.0), Vec(30.0, 30.0));
  }
}

=== FILE: Strings.dfy ===
/** Text helpers with the semantics of the JavaScript operations the TypeScript code uses:
    `Array.prototype.join`, splitting at a separator, and rendering an integer
    with a template literal. */
module Strings {
  import opened Wrappers

  /** `parts.join(sep)`: the parts with one separator between neighbours. */
  function Join(parts: seq<string>, sep: char): string
  {
    if |parts| == 0 then ""
    else if |parts| == 1 then parts[0]
    else parts[0] + [sep] + Join(parts[1..], sep)
  }

  /** Cuts `s` at the first occurrence of `c`: the text before it and the text after it. */
  function SplitAt(s: string, c: char): (r: Option<(string, string)>)
    ensures r.None? <==> c !in s
    ensures r.Some? ==> s == r.value.0 + [c] + r.value.1 && c !in r.value.0
  {
    if |s| == 0 then None
    else if s[0] == c then Some(([], s[1..]))
    else match SplitAt(s[1..], c)
      case None => None
      case Some((before, after)) =>
        assert s == [s[0]] + s[1..];
        Some(([s[0]] + before, after))
  }

  /** All pieces of `s` between occurrences of `c` (the inverse of `Join`). */
  function Split(s: string, c: char): (r: seq<string>)
    ensures |r| > 0
    decreases |s|
  {
    match SplitAt(s, c)
    case None => [s]
    case Some((before, after)) => [before] + Split(after, c)
  }

  /** Cutting at the first `c` of `a + [c] + b` gives back `a` and `b` when `a` holds no `c`. */
  lemma {:induction false} SplitAtConcat(a: string, c: char, b: string)
    requires c !in a
    ensures SplitAt(a + [c] + b, c) == Some((a, b))
  {
    var s := a + [c] + b;
    if |a| == 0 {
      assert s == [c] + b;
    } else {
      assert s[0] == a[0] != c;
      assert s[1..] == a[1..] + [c] + b;
      SplitAtConcat(a[1..], c, b);
      assert [a[0]] + a[1..] == a;
    }
  }

  /** Splitting a join restores the parts, provided no part holds the separator. */
  lemma {:induction false} SplitJoin(parts: seq<string>, c: char)
    requires |parts| > 0
    requires forall i :: 0 <= i < |parts| ==> c !in parts[i]
    ensures Split(Join(parts, c), c) == parts
  {
    if |parts| == 1 {
      assert Join(parts, c) == parts[0];
    } else {
      var rest := Join(parts[1..], c);
      assert Join(parts, c) == parts[0] + [c] + rest;
      SplitAtConcat(parts[0], c, rest);
      SplitJoin(parts[1..], c);
      assert parts == [parts[0]] + parts[1..];
    }
  }

  /** A character that occurs in no part and is not the separator does not occur in the join. */
  lemma {:induction false} JoinAvoids(parts: seq<string>, sep: char, c: char)
    requires c != sep
    requires forall i :: 0 <= i < |parts| ==> c !in parts[i]
    ensures c !in Join(parts, sep)
  {
    if |parts| > 1 {
      JoinAvoids(parts[1..], sep, c);
    }
  }

  predicate IsDigit(ch: char)
  {
    '0' <= ch <= '9'
  }

  predicate AllDigits(s: string)
  {
    forall i :: 0 <= i < |s| ==> IsDigit(s[i])
  }

  function DigitChar(d: nat): (ch: char)
    requires d < 10
    ensures IsDigit(ch)
  {
    "0123456789"[d]
  }

  function DigitValue(ch: char): nat
    requires IsDigit(ch)
  {
    (ch as int) - ('0' as int)
  }

  /** Decimal digits of `n`, most significant first, without leading zeros. */
  function NatToString(n: nat): (s: string)
    ensures |s| > 0 && AllDigits(s)
  {
    if n < 10 then [DigitChar(n)]
    else NatToString(n / 10) + [DigitChar(n % 10)]
  }

  /** `${n}` for an integer `n`: a minus sign before the digits of a negative value. */
  function IntToString(n: int): (s: string)
    ensures |s| > 0
    ensures forall i :: 0 <= i < |s| ==> s[i] == '-' || IsDigit(s[i])
  {
    if n < 0 then "-" + NatToString(-n) else NatToString(n)
  }

  /** The value of a non-empty run of decimal digits. */
  function DigitsValue(s: string): nat
    requires |s| > 0 && AllDigits(s)
  {
    if |s| == 1 then DigitValue(s[0])
    else DigitsValue(s[..|s| - 1]) * 10 + DigitValue(s[|s| - 1])
  }

  /** Reads an optionally negative decimal integer; `None` for any other text. */
  function ParseInt(s: string): Option<int>
  {
    if |s| > 1 && s[0] == '-' && AllDigits(s[1..]) then Some(0 - DigitsValue(s[1..]) as int)
    else if |s| > 0 && AllDigits(s) then Some(DigitsValue(s))
    else None
  }

  lemma {:induction false} DigitsOfNat(n: nat)
    ensures DigitsValue(NatToString(n)) == n
  {
    var s := NatToString(n);
    if n >= 10 {
      var prefix := NatToString(n / 10);
      assert s == prefix + [DigitChar(n % 10)];
      assert s[..|s| - 1] == prefix;
      DigitsOfNat(n / 10);
    }
  }

  /** A run of digits reads as its value. */
  lemma ParseDigits(t: string)
    requires |t| > 0 && AllDigits(t)
    ensures ParseInt(t) == Some(DigitsValue(t) as int)
  {
    assert IsDigit(t[0]);
  }

  /** A minus sign before a run of digits reads as the negated value. */
  lemma ParseNegated(t: string)
    requires |t| > 0 && AllDigits(t)
    ensures ParseInt("-" + t) == Some(0 - DigitsValue(t) as int)
  {
    assert ("-" + t)[1..] == t;
  }

  /** Reading back the decimal rendering of an integer gives the integer. */
  lemma IntStringRoundTrip(n: int)
    ensures ParseInt(IntToString(n)) == Some(n)
  {
    if n < 0 {
      ParseNegated(NatToString(-n));
      DigitsOfNat(-n);
    } else {
      ParseDigits(NatToString(n));
      DigitsOfNat(n);
    }
  }
}

=== FILE: Wrappers.dfy ===
/** Optional values and results with an error, used wherever the TypeScript code returns
    `undefined`/`null` or throws. */
module Wrappers {

  /** A value that may be absent: TypeScript's `undefined` / `null`. */
  datatype Option<+T> = None | Some(value: T)

  /** Either a value or the error the TypeScript code would throw. */
  datatype Result<+T, +E> = Ok(value: T) | Err(error: E)

  /** Unsigned 8-bit values, as held by a `Uint8ClampedArray` or a Node `Buffer`. */
  type byte = x: int | 0 <= x < 256
}
